=== FILE: README.md ===
# Mold counter: cycle-timing and telemetry engine in Dafny

This project models the in-memory core of the mold-press cycle counter
(`mold_counter_with_sys_cmd_prag.c`). A poll loop watches one status byte and
turns each press/release into a cycle duration. The duration feeds a sliding-window
accumulator (`window_update` / `get_rec`). The resulting record is pushed into a
ring queue (`queue_add` / `queue_get`). A background loop (`event_handler`) drains
the queue into a batch for publishing and periodically saves the window and the last
record. Command-line overrides (`handle_cmdline`) patch the persisted configuration.

Every piece is an immutable state plus pure step functions:

- `Types`: compiled constants (`WINDOW_SZ` 100, `RECORD_QSZ` 20, 60 s transmit, 900 s
  save, log level 0..3), `Metadata`, `Record`, `Option`, array sums, C truncating division.
- `Ring`: the ring discipline shared by window and queue. After n writes, entry k sits
  in slot `k mod cap` for the last `cap` entries. Also holds the modular-arithmetic lemmas.
- `Window`: `window_update`, `get_rec`, the running-sum invariant, the restore defect
  and its correction.
- `RecordQueue`: `queue_add`, `queue_get`, the drain loop, and the abstraction to the
  log of all records ever added. Also the overflow re-read and its correction.
- `Persist`: the `.meta` / `.win` / `.rec` files as an abstract store of three optional blobs.
- `Detector`: `check_event` bit decoding and the press/release/power-down logic of
  the poll loop.
- `Scheduler`: one iteration of `event_handler`, the packet-filling loop and its bound.
- `Cmdline`: `handle_cmdline` as a fold over converted `(flag, value)` pairs.
- `Device`: start-up, the two loops' ticks in any interleaving, and the invariant
  they preserve. A `Build` value selects the program as written (`Device.AsWritten`) or
  the corrections listed under Findings (`Device.Corrected`), one switch each. What
  holds as written is stated for every build, and what needs a correction is stated
  under that switch.

The clock (`time(NULL)`) and the status byte are parameters of each tick.

Facts of the code the model keeps as they are:

- Bit 0 of the status byte is power-down (`EVENT_OFF = 0`, line 42) and bit 1 is
  "pressed" (`EVENT_PRESSED = 1`, line 43); `check_event` tests `1 << evt`.
- A consumer more than `rec_qsz` records behind does not skip the overwritten
  entries. It re-reads slots: capacity 2 fed A, B, C yields C, B, C.
- `-w 100` is rejected (`val < WINDOW_SZ`, line 430), although `print_help` prints
  the maximum as `WINDOW_SZ` (line 406); `-q 20` likewise.
- Power-down is level-triggered: `handle_power_down` runs on every tick with bit 0 set.

Preconditions the code needs but never ensures: `window_sz` in 1..100 and `rec_qsz`
in 1..20 (`Types.WellFormed`). `-w 0` and `-q 0` pass validation, and a `.meta` file
is loaded without any check. Either leads to `% 0` or `/ 0`, and a size above the
compiled maximum indexes past the arrays. `Device.StoreFits` states what the persisted
files must hold for start-up to be safe.

## Model

| member | source | states |
|---|---|---|
| `Types.Defaults` | mold_counter_with_sys_cmd_prag.c:90-94 | the start-up configuration (100, 20, 60 s, 900 s, level 0) satisfies the size bounds the ring code needs |
| `Types.TruncDiv` | mold_counter_with_sys_cmd_prag.c:168 | `g_sum / window_sz` truncates toward zero: the quotient times the divisor lies between 0 and the dividend, within one divisor of it |
| `Window.InitSatisfiesSumInv` | mold_counter_with_sys_cmd_prag.c:85-98 | the zeroed window and zero sum satisfy the running-sum invariant for every window size from 1 to 100 |
| `Window.Update` | mold_counter_with_sys_cmd_prag.c:114-126 | keeps the cursor below `window_sz` and advances it modulo the size; adds exactly 1 to the lifetime count and sets the last sample; changes only the slot at the old cursor |
| `Window.UpdateKeepsDrift` | mold_counter_with_sys_cmd_prag.c:119-121 | subtract-old/add-new moves the running sum and the active-slot sum by the same amount, so `g_sum == Σ g_window[0..window_sz)` is preserved, and so is any error it already had |
| `Window.GetRec` | mold_counter_with_sys_cmd_prag.c:157-170 | count is the lifetime count, `l_avg` the last duration; `s_avg` is 0 while fewer than `window_sz` cycles were seen, else the truncated quotient of the sum by the size |
| `Window.Feed` | mold_counter_with_sys_cmd_prag.c:114-126 | a run of updates keeps the window in shape and adds its length to the lifetime count |
| `Window.FeedIndex` | mold_counter_with_sys_cmd_prag.c:122-123 | after n updates the cursor has advanced n places modulo `window_sz` |
| `Window.FeedKeepsDrift` | mold_counter_with_sys_cmd_prag.c:119-121 | any run of updates leaves the difference between running sum and slot sum unchanged |
| `Window.FeedFromInitContents` | mold_counter_with_sys_cmd_prag.c:119-123 | from the zeroed start the active slots hold the most recent `window_sz` durations (duration k in slot k mod size), and slots not yet reached are still zero |
| `Window.FeedFromInitSum` | mold_counter_with_sys_cmd_prag.c:114-126 | from the zeroed start the running sum equals the sum of the most recent min(N, `window_sz`) durations |
| `Window.FeedFromInitSumInv` | mold_counter_with_sys_cmd_prag.c:95-98 | from the zeroed start the sum invariant holds after any sequence of updates |
| `Window.CursorOnOldest` | mold_counter_with_sys_cmd_prag.c:119-121 | once the window has filled, the slot about to be overwritten holds the oldest duration still in the window |
| `Window.FullWindowEvictsOldest` | mold_counter_with_sys_cmd_prag.c:119-120 | with a full window, one update removes the duration `window_sz` cycles back and adds the new one |
| `Window.FeedFromInitRecord` | mold_counter_with_sys_cmd_prag.c:157-170 | after N durations from the zeroed start, `get_rec` reports count N, the last duration, and the truncated mean of the last `window_sz` durations (0 while N < size) |
| `Window.ExampleThreeSamples` | mold_counter_with_sys_cmd_prag.c:157-170 | window 3 fed 5, 7, 9 reports count 3, average 7, last 9 |
| `Window.Restore` | mold_counter_with_sys_cmd_prag.c:277-281 | loading `.win` replaces the ring and leaves the running sum, cursor, count and last sample untouched |
| `Window.RestoredSumStaysWrong` | mold_counter_with_sys_cmd_prag.c:277-281 | after restoring a ring into the zeroed state, the running sum stays short by the restored active sum through every later update, so the invariant is broken whenever that sum is non-zero |
| `Window.RestoredAverageExample` | mold_counter_with_sys_cmd_prag.c:279 | a restored window of three 10s, then three more 10s: the slots sum to 30 but `s_avg` is 0 |
| `Window.FeedNoneUpdated` | mold_counter_with_sys_cmd_prag.c:121-123 | from cursor 0, at most `window_sz` updates write their values into slots 0, 1, … and touch no other slot |
| `Window.Resync` | mold_counter_with_sys_cmd_prag.c:279 | corrected restore: recomputing the running sum from the restored ring re-establishes the sum invariant and changes nothing else |
| `Window.ResyncedAverageExample` | mold_counter_with_sys_cmd_prag.c:279 | with the sum recomputed, the restored window of three 10s then three 10s reports average 10 |
| `Ring.MirrorsAfterWrite` | mold_counter_with_sys_cmd_prag.c:133-136 | writing the n-th entry into slot n mod cap keeps the slots equal to the last `cap` entries written |
| `Ring.NextSlotHoldsOldest` | mold_counter_with_sys_cmd_prag.c:134-136 | once `cap` entries exist, the next write lands on the oldest resident entry |
| `Ring.ModAdd` | mold_counter_with_sys_cmd_prag.c:148-149 | a cursor kept modulo cap and advanced b times agrees with the raw counter advanced b times, modulo cap |
| `RecordQueue.AddAllPreservesInv` | mold_counter_with_sys_cmd_prag.c:128-137 | a run of `queue_add` calls extends the abstract log by exactly that run, so every queue built from the zeroed start by adds is a reachable one |
| `RecordQueue.InitSatisfiesInv` | mold_counter_with_sys_cmd_prag.c:99-102 | the zeroed cursors and counters satisfy the queue abstraction with an empty log |
| `RecordQueue.Add` | mold_counter_with_sys_cmd_prag.c:128-137 | always succeeds; adds exactly 1 to `w_rec_cnt`; stores the record at the old write cursor and advances it modulo `rec_qsz`; leaves every other slot and the consumer fields alone |
| `RecordQueue.AddPreservesInv` | mold_counter_with_sys_cmd_prag.c:128-137 | adding extends the abstract log by exactly the added record and keeps cursors equal to counters modulo `rec_qsz` |
| `RecordQueue.Get` | mold_counter_with_sys_cmd_prag.c:139-155 | when `r_rec_cnt >= w_rec_cnt` it returns nothing and changes nothing; otherwise it returns the slot at the read cursor, adds 1 to `r_rec_cnt` and advances `r_rec_idx` modulo `rec_qsz`; no producer field changes |
| `RecordQueue.GetInOrder` | mold_counter_with_sys_cmd_prag.c:139-155 | while the backlog is at most `rec_qsz`, a read returns the oldest unread record of the log |
| `RecordQueue.GetPreservesInv` | mold_counter_with_sys_cmd_prag.c:139-155 | a read keeps the queue abstraction whatever the backlog |
| `RecordQueue.Drain` | mold_counter_with_sys_cmd_prag.c:373-380 | calling `queue_get` until it fails yields exactly `w_rec_cnt - r_rec_cnt` records and leaves the read count equal to the write count, with no producer field changed |
| `RecordQueue.DrainPreservesInv` | mold_counter_with_sys_cmd_prag.c:372-380 | the drain as written keeps the queue abstraction and its log, whatever the backlog |
| `RecordQueue.DrainReadsSlots` | mold_counter_with_sys_cmd_prag.c:139-155 | the i-th drained record comes from slot `(r_rec_idx + i) mod rec_qsz`, so slots are re-read rather than skipped when the backlog exceeds capacity |
| `RecordQueue.DrainInOrder` | mold_counter_with_sys_cmd_prag.c:128-155 | while the backlog is at most `rec_qsz`, draining yields exactly the unread records in the order they were added |
| `RecordQueue.OverflowRereadExample` | mold_counter_with_sys_cmd_prag.c:128-155 | capacity 2 fed A, B, C with no read in between drains as C, B, C |
| `RecordQueue.Catchup` | mold_counter_with_sys_cmd_prag.c:141-149 | corrected read side: a consumer more than `rec_qsz` behind is moved up to the oldest resident record, after which the backlog is at most `rec_qsz` |
| `RecordQueue.CatchupPreservesInv` | mold_counter_with_sys_cmd_prag.c:141-149 | the catch-up keeps the queue abstraction |
| `RecordQueue.DrainSkipping` | mold_counter_with_sys_cmd_prag.c:373-380 | the corrected drain never yields more than `rec_qsz` records and empties the queue |
| `RecordQueue.DrainSkippingYieldsSurvivors` | mold_counter_with_sys_cmd_prag.c:128-155 | the corrected drain yields exactly the records still resident, oldest first |
| `RecordQueue.SkippingExample` | mold_counter_with_sys_cmd_prag.c:128-155 | capacity 2 fed A, B, C: the corrected drain yields B, C, then the queue reports empty |
| `Persist.Save` | mold_counter_with_sys_cmd_prag.c:197-243 | `file_write(type)` leaves the file named by `type` holding data and every other file untouched |
| `Persist.Load` | mold_counter_with_sys_cmd_prag.c:245-298 | `file_read(type)` on an absent or empty file changes nothing; otherwise only the part named by `type` changes, to exactly what the file holds (writing it back leaves the store as it is) |
| `Persist.SaveAll` | mold_counter_with_sys_cmd_prag.c:197-243 | a series of `file_write` calls leaves each named file holding the current image's part and every other file untouched |
| `Persist.SaveLoadRoundTrip` | mold_counter_with_sys_cmd_prag.c:197-298 | loading a file just saved restores exactly the saved part and leaves the other parts of the image as they were |
| `Persist.LoadMissingIsIdentity` | mold_counter_with_sys_cmd_prag.c:262-266 | loading an absent or empty file leaves the in-memory state unchanged, and repeating it changes nothing |
| `Detector.MaskTestsBit` | mold_counter_with_sys_cmd_prag.c:185-195 | masking with `1 << k` gives a non-zero result exactly when bit k is set |
| `Detector.CheckEvent` | mold_counter_with_sys_cmd_prag.c:185-195 | `check_event(data, evt)` is true iff bit `evt` of `data` is set |
| `Detector.EventMasks` | mold_counter_with_sys_cmd_prag.c:40-44 | power-down (`EVENT_OFF`) tests mask 0x01 and "pressed" (`EVENT_PRESSED`) tests mask 0x02 |
| `Detector.Poll` | mold_counter_with_sys_cmd_prag.c:588-620 | pressed while idle starts timing at `now`; released while in process clears the flag and does exactly one `window_update(now - t_start)`, one `get_rec` and one `queue_add`; an unchanged level changes nothing; bit 0 triggers the power-down record and REC, WIN writes on every tick, whatever `in_process` is |
| `Detector.PressReleaseCycle` | mold_counter_with_sys_cmd_prag.c:590-615 | for any status bytes with power-down clear, one with "pressed" set at t0 followed by one with it clear at t1 feeds exactly one duration t1 - t0 to the window and queues the record taken right after it |
| `Detector.HoldingIsQuiet` | mold_counter_with_sys_cmd_prag.c:590-601 | while a timing is in process, every tick whose status byte has "pressed" set and power-down clear changes nothing at all |
| `Scheduler.Tick` | mold_counter_with_sys_cmd_prag.c:363-398 | the transmit timer fires iff `now - t_lastTx >= tx_freq_sec` and then resets to `now`, drains until `queue_get` fails and publishes iff something was drained, with the drained records as the batch; the save timer fires iff `now - t_lastRom >= save_freq_sec` and then takes `get_rec` and writes REC then WIN; a timer that does not fire changes nothing |
| `Scheduler.TickPublishesBacklog` | mold_counter_with_sys_cmd_prag.c:365-387 | as written, a firing transmit timer publishes iff the backlog is non-zero, with `sz` equal to the backlog, and the next `queue_get` reports empty |
| `Scheduler.DrainIntoPacket` | mold_counter_with_sys_cmd_prag.c:371-386 | the packet loop stores the drained records at `arr[0..sz)` with `sz` equal to the backlog, the rest of the packet stays zero, and every `arr[idx]` write is in bounds exactly because the backlog is at most `RECORD_QSZ` |
| `Scheduler.Emit` | mold_counter_with_sys_cmd_prag.c:327-334 | the packet `publish_data` writes: `sz` counts every drained record, the 20-entry array holds the first 20 of them in order and zeros after the batch |
| `Scheduler.EmitRoundTrip` | mold_counter_with_sys_cmd_prag.c:327-386 | a receiver reading the first `sz` entries of the packet gets back the drained batch iff it has at most 20 records; a longer batch arrives cut to its first 20 |
| `Scheduler.PacketIsEmit` | mold_counter_with_sys_cmd_prag.c:371-386 | a zeroed 20-entry array holding a batch of at most 20 records at `arr[0..sz)`, as the drain loop leaves it, is exactly the packet `Scheduler.Emit` describes |
| `Scheduler.BatchOverflowExample` | mold_counter_with_sys_cmd_prag.c:372-376 | for any configured `rec_qsz`, more than 20 records added by `queue_add` from the zeroed queue (a reachable state) are all drained by the next transmit tick, so the loop writes `arr[20]` and beyond, past `g_packet` |
| `Scheduler.OverflowPacketLosesRecords` | mold_counter_with_sys_cmd_prag.c:327-376 | the packet then sent for that batch has `sz` equal to the number of records added but carries only the first 20 drained, so what arrives is not the batch |
| `Scheduler.TickKeepsInv` | mold_counter_with_sys_cmd_prag.c:365-387 | under either drain a tick keeps the queue abstraction and its log |
| `Scheduler.TickCorrectedBatchFits` | mold_counter_with_sys_cmd_prag.c:365-387 | with the corrected drain a tick keeps the queue abstraction and publishes exactly the surviving records in order, never more than `RECORD_QSZ` |
| `Scheduler.TwoRecordScenario` | mold_counter_with_sys_cmd_prag.c:365-387 | two unread records when the transmit period elapses: one batch of exactly those two, then the queue reports empty |
| `Cmdline.Override` | mold_counter_with_sys_cmd_prag.c:427-468 | `-w` accepted iff value < 100, `-q` iff < 20, `-d` iff ≤ 3, `-p` and `-s` always; an accepted option changes only its own field |
| `Cmdline.Apply` | mold_counter_with_sys_cmd_prag.c:414-476 | the final configuration is the last `.meta` image written, or the initial one if nothing was accepted; the run exits iff some option was `-h` or unknown |
| `Cmdline.OneWritePerAcceptedOption` | mold_counter_with_sys_cmd_prag.c:427-468 | each accepted option writes `.meta` exactly once, with its new value already in place; a rejected option changes nothing and writes nothing |
| `Cmdline.ApplyKeepsMaxima` | mold_counter_with_sys_cmd_prag.c:427-468 | every override respects window ≤ 100, queue ≤ 20 and level ≤ 3, so as written a zero window or queue size is the only way the options leave a valid configuration invalid, and with zero refused there is none |
| `Cmdline.ZeroSizesAccepted` | mold_counter_with_sys_cmd_prag.c:427-446 | as written, `-w 0` and `-q 0` are accepted and leave a size of 0 |
| `Cmdline.CheckedApplyKeepsWellFormed` | mold_counter_with_sys_cmd_prag.c:427-446 | with zero also refused for `-w` and `-q`, every configuration written and the final one keep window size 1..100 and queue size 1..20 |
| `Cmdline.WindowOverrideScenarios` | mold_counter_with_sys_cmd_prag.c:427-436 | `-w 50` is taken and persisted once; `-w 150` and `-w 100` are dropped and nothing is written |
| `Device.LoadedImage` | mold_counter_with_sys_cmd_prag.c:495-498 | each of the configuration, window ring and record is the persisted one when its file has data, else the default, the zeroed ring or the zero record; with persisted files that fit, the configuration is within bounds and the ring full-size |
| `Device.Boot` | mold_counter_with_sys_cmd_prag.c:414-499 | start-up starts the loops iff no option exits; whether it exits or not, `.meta` holds the last configuration an accepted option wrote (untouched if none was) and `.win`, `.rec` are untouched; when it starts, the configuration is the loaded one overlaid by the accepted options, the record and ring are the loaded ones and the detector is idle; a configuration out of bounds can only come from a zero size accepted as written; in bounds, the queue abstraction holds with an empty log; as written the running sum is left at 0, short by the restored active sum; with the sum recomputed the engine invariant holds |
| `Device.ExitKeepsEarlierWrites` | mold_counter_with_sys_cmd_prag.c:423-436 | `-w 50 -h` exits, but the override written before the exit persists: the next start-up loads window size 50 |
| `Device.PollStep` | mold_counter_with_sys_cmd_prag.c:588-620 | a poll tick keeps the state within bounds; with bit 0 set, the `.win` and `.rec` files hold the live window ring and record afterwards, and otherwise no file changes |
| `Device.PollPreservesInv` | mold_counter_with_sys_cmd_prag.c:588-620 | a poll tick extends the queue log by exactly the record it pushed, if any, and leaves the error of the running sum unchanged, so the engine invariant is kept |
| `Device.PowerDownThenLoadRestores` | mold_counter_with_sys_cmd_prag.c:314-318 | after a power-down tick, loading the files gives back exactly the window ring and record that were live |
| `Device.SchedStep` | mold_counter_with_sys_cmd_prag.c:363-398 | a scheduler tick never touches the window, detector or configuration and publishes only non-empty batches; as written a batch is the whole backlog, with the corrected drain at most `RECORD_QSZ` |
| `Device.SchedPreservesInv` | mold_counter_with_sys_cmd_prag.c:363-398 | a scheduler tick keeps the queue log under either drain, and with it the engine invariant |
| `Device.Execute` | mold_counter_with_sys_cmd_prag.c:550-621 | any interleaving of poll and scheduler ticks stays within bounds and publishes only non-empty batches, each fitting the packet when the drain is corrected |
| `Device.ExecutePreservesInv` | mold_counter_with_sys_cmd_prag.c:550-621 | under either build any interleaving keeps the queue mirroring every record pushed during the run and leaves the error of the running sum as it started |
| `Device.BootThenAnyRun` | mold_counter_with_sys_cmd_prag.c:495-621 | from any start-up in bounds every reachable state keeps the queue abstraction; with the sum recomputed the engine invariant holds throughout; as written the running sum stays short by the restored window's active sum in every reachable state |
| `Device.CorrectedBootThenAnyRun` | mold_counter_with_sys_cmd_prag.c:495-621 | with all three corrections, start-up is always in bounds and every reachable state satisfies the engine invariant, with every published batch fitting the packet |
| `Device.AsWrittenSumNeverRecovers` | mold_counter_with_sys_cmd_prag.c:277-281 | as written, a persisted window whose active slots do not sum to 0 leaves the running-sum invariant broken in every state reachable from start-up |

## Left out

- The fieldbus binding: `get_io_data`, device scan and open, watchdog, `libpackbus_Push`
  and the application-state calls. These are calls into a device library. The status
  byte is a parameter of each poll tick.
- File I/O: `fopen`/`fread`/`fwrite` of raw struct bytes. Files are typed optional
  blobs that always hold a full image. Short or corrupt files, write failures and the
  directory bootstrap are not modelled.
- Publishing through `system("mosquitto_pub …")` and the `.pub` file. A publish is the
  packet value `Scheduler.Emit` builds.
- Threads, `sleep`/`usleep`, `time(NULL)` and scheduler priority. The two loops are
  sequential steps that can interleave in any order, with `now` as a parameter. The
  unsynchronised cross-thread race on the queue and window is not modelled: each tick
  is atomic.
- `getopt`, `atoi`, `print_help` and `exit(0)`. Option values arrive as converted
  `uint32_t`. `-h` and unknown options end the run.
- All logging, `print_op_data`, and the `dbg_log_level` checks that guard only `printf`.
- `Types.TruncDiv`: models the signed division of a 64-bit `time_t` sum. On a target
  with a 32-bit `time_t` the `uint32_t` divisor makes the division unsigned. The
  `(uint32_t)` casts of the average and the last duration are not modelled either.
- `Scheduler.Tick`: publishes the drained batch itself; the bytes sent are
  `Scheduler.Emit` of it, which keeps only the first 20 records. What the writes past
  `g_packet.arr[19]` clobber in the memory behind `g_packet` is not modelled.
- `Scheduler.Tick`: compares `now - t_lastTx` with the period as signed integers. On a
  target with a 32-bit `time_t`, a negative difference would compare as unsigned.
- `RecordQueue.Add`, `Window.Update`: counters are unbounded naturals; the 2^32
  wrap-around of `g_total`, `w_rec_cnt` and `r_rec_cnt` is not modelled.
- `Device.Boot`: requires the persisted `.meta` to be within bounds (`StoreFits`),
  because the code loads it unchecked.
- `Device.BootThenAnyRun`, `Device.AsWrittenSumNeverRecovers`: as written, they say
  nothing about a start-up that accepted `-w 0` or `-q 0`. The first tick then computes
  `% 0` or `/ 0` (lines 123, 136, 168), which C leaves undefined, and the model's ticks
  need sizes in bounds. The zero sizes are the fourth finding below.

## Findings

| source | as written | input that shows it | evidently intended | confidence | as-written member | corrected member |
|---|---|---|---|---|---|---|
| mold_counter_with_sys_cmd_prag.c:277-281 | `.win` is restored into `g_window` while `g_sum` stays 0 | persisted window of three 10s with `window_sz` 3, then three cycles of 10 s: the slots sum to 30 but `s_avg` is 0, and the error persists forever | recompute `g_sum` from the restored window once the size is final | high, not executed | `Window.RestoredAverageExample` | `Window.Resync` |
| mold_counter_with_sys_cmd_prag.c:139-155 | with a backlog above `rec_qsz`, `queue_get` re-reads slots instead of skipping overwritten ones | capacity 2, add A, B, C, then drain: yields C, B, C | skip to the oldest resident record: B, C | high, not executed | `RecordQueue.OverflowRereadExample` | `RecordQueue.DrainSkippingYieldsSurvivors` |
| mold_counter_with_sys_cmd_prag.c:372-376 | the drain loop writes `g_packet.arr[idx]` with no bound | 21 cycles completed within one transmit period (21 `queue_add` calls): the transmit tick drains all 21, the loop writes `arr[20]` past `g_packet`, and the packet sent has `sz` 21 with only the first 20 records | never drain more than `rec_qsz` records per batch | high, not executed | `Scheduler.BatchOverflowExample` | `Scheduler.TickCorrectedBatchFits` |
| mold_counter_with_sys_cmd_prag.c:427-446 | `-w 0` and `-q 0` pass validation | `-w 0`: the next `window_update` computes `g_index % 0` | refuse zero sizes | high, not executed | `Cmdline.ZeroSizesAccepted` | `Cmdline.CheckedApplyKeepsWellFormed` |

=== FILE: cmdline.dfy ===
/**
 `handle_cmdline` as a fold over options whose values are already converted to
 `uint32_t`. Each accepted override changes one field of the configuration and
 writes `.meta` at once; a rejected one is dropped silently; `-h` and an unknown
 option end the process.
 */
module Cmdline {
  import opened Types

  datatype Flag = HelpFlag | WindowFlag | QueueFlag | TxFlag | SaveFlag | DebugFlag | UnknownFlag

  datatype Opt = Opt(flag: Flag, val: u32)

  /** How `-w` and `-q` are bounded: as written, or also refusing zero. */
  datatype Validation = AsWritten | RejectZeroSizes

  /** `-h` prints help and an unknown option prints a hint; both then `exit(0)`. */
  predicate IsExit(f: Flag) {
    f == HelpFlag || f == UnknownFlag
  }

  /** The acceptance rule of each option, as the `switch` arms state it. */
  predicate Accepts(v: Validation, o: Opt) {
    match o.flag
    case WindowFlag => o.val < WINDOW_SZ && (v == RejectZeroSizes ==> o.val > 0)
    case QueueFlag => o.val < RECORD_QSZ && (v == RejectZeroSizes ==> o.val > 0)
    case DebugFlag => o.val <= DEBUG_LOG_LEVEL_MAX
    case TxFlag => true
    case SaveFlag => true
    case HelpFlag => false
    case UnknownFlag => false
  }

  /** One override: the new configuration when accepted, `None` when dropped. */
  function Override(v: Validation, m: Metadata, o: Opt): (r: Option<Metadata>)
    ensures r.Some? <==> Accepts(v, o)
    ensures r.Some? ==> r.value.windowSz == (if o.flag == WindowFlag then o.val else m.windowSz)
    ensures r.Some? ==> r.value.recQsz == (if o.flag == QueueFlag then o.val else m.recQsz)
    ensures r.Some? ==> r.value.txFreqSec == (if o.flag == TxFlag then o.val else m.txFreqSec)
    ensures r.Some? ==> r.value.saveFreqSec == (if o.flag == SaveFlag then o.val else m.saveFreqSec)
    ensures r.Some? ==> r.value.dbgLogLevel == (if o.flag == DebugFlag then o.val else m.dbgLogLevel)
  {
    if !Accepts(v, o) then None
    else match o.flag
      case WindowFlag => Some(m.(windowSz := o.val))
      case QueueFlag => Some(m.(recQsz := o.val))
      case TxFlag => Some(m.(txFreqSec := o.val))
      case SaveFlag => Some(m.(saveFreqSec := o.val))
      case DebugFlag => Some(m.(dbgLogLevel := o.val))
      case HelpFlag => None
      case UnknownFlag => None
  }

  /** The configuration after the options, the `.meta` images written, and whether it exited. */
  datatype Outcome = Outcome(meta: Metadata, writes: seq<Metadata>, exited: bool)

  /** Options processed left to right until the list ends or an exiting option. */
  function Apply(v: Validation, m: Metadata, opts: seq<Opt>): (r: Outcome)
    ensures |r.writes| <= |opts|
    ensures |r.writes| == 0 ==> r.meta == m
    ensures |r.writes| > 0 ==> r.meta == r.writes[|r.writes| - 1]
    ensures r.exited <==> exists i :: 0 <= i < |opts| && IsExit(opts[i].flag)
    decreases |opts|
  {
    if |opts| == 0 then Outcome(m, [], false)
    else if IsExit(opts[0].flag) then Outcome(m, [], true)
    else
      var rest := Override(v, m, opts[0]);
      var tail := Apply(v, if rest.Some? then rest.value else m, opts[1..]);
      assert forall i :: 1 <= i < |opts| ==> opts[i] == opts[1..][i - 1];
      if rest.Some? then Outcome(tail.meta, [rest.value] + tail.writes, tail.exited)
      else tail
  }

  /** Number of options accepted before the first exiting one. */
  function AcceptedCount(v: Validation, opts: seq<Opt>): nat
    decreases |opts|
  {
    if |opts| == 0 || IsExit(opts[0].flag) then 0
    else (if Accepts(v, opts[0]) then 1 else 0) + AcceptedCount(v, opts[1..])
  }

  /**
   Every accepted option writes `.meta` exactly once and every rejected one writes
   nothing; an accepted option is persisted with its value already in place.
   */
  lemma {:induction false} OneWritePerAcceptedOption(v: Validation, m: Metadata, opts: seq<Opt>)
    ensures |Apply(v, m, opts).writes| == AcceptedCount(v, opts)
    ensures |opts| > 0 && !IsExit(opts[0].flag) && Accepts(v, opts[0]) ==>
              Apply(v, m, opts).writes[0] == Override(v, m, opts[0]).value
    ensures |opts| > 0 && !IsExit(opts[0].flag) && !Accepts(v, opts[0]) ==>
              Apply(v, m, opts) == Apply(v, m, opts[1..])
    decreases |opts|
  {
    if |opts| > 0 && !IsExit(opts[0].flag) {
      var o := Override(v, m, opts[0]);
      OneWritePerAcceptedOption(v, if o.Some? then o.value else m, opts[1..]);
    }
  }

  /**
   With zero refused for `-w` and `-q`, the configuration stays well formed (and so
   does every image written), whatever the options.
   */
  lemma {:induction false} CheckedApplyKeepsWellFormed(m: Metadata, opts: seq<Opt>)
    requires WellFormed(m)
    ensures WellFormed(Apply(RejectZeroSizes, m, opts).meta)
    ensures forall i :: 0 <= i < |Apply(RejectZeroSizes, m, opts).writes| ==>
              WellFormed(Apply(RejectZeroSizes, m, opts).writes[i])
    decreases |opts|
  {
    if |opts| > 0 && !IsExit(opts[0].flag) {
      var o := Override(RejectZeroSizes, m, opts[0]);
      CheckedApplyKeepsWellFormed(if o.Some? then o.value else m, opts[1..]);
    }
  }

  /** The upper bounds of `WellFormed`; as written, the lower bound 0 < size is not checked. */
  predicate WithinMaxima(m: Metadata) {
    m.windowSz <= WINDOW_SZ && m.recQsz <= RECORD_QSZ && m.dbgLogLevel <= DEBUG_LOG_LEVEL_MAX
  }

  /**
   Under either validation the upper bounds survive every override, so as written the
   only way an accepted option leaves a configuration outside `WellFormed` is a zero
   window or queue size.
   */
  lemma {:induction false} ApplyKeepsMaxima(v: Validation, m: Metadata, opts: seq<Opt>)
    requires WithinMaxima(m)
    ensures WithinMaxima(Apply(v, m, opts).meta)
    ensures WellFormed(m) && !WellFormed(Apply(v, m, opts).meta) ==>
              v == AsWritten && (Apply(v, m, opts).meta.windowSz == 0 || Apply(v, m, opts).meta.recQsz == 0)
    decreases |opts|
  {
    if |opts| > 0 && !IsExit(opts[0].flag) {
      var o := Override(v, m, opts[0]);
      ApplyKeepsMaxima(v, if o.Some? then o.value else m, opts[1..]);
      if v == RejectZeroSizes && WellFormed(m) {
        CheckedApplyKeepsWellFormed(m, opts);
      }
    }
  }

  /** As written, `-w 0` and `-q 0` are accepted and leave a size the ring code divides by. */
  lemma ZeroSizesAccepted(m: Metadata)
    ensures Apply(AsWritten, m, [Opt(WindowFlag, 0)]).meta.windowSz == 0
    ensures Apply(AsWritten, m, [Opt(QueueFlag, 0)]).meta.recQsz == 0
    ensures !WellFormed(Apply(AsWritten, m, [Opt(WindowFlag, 0)]).meta)
  {
    assert [Opt(WindowFlag, 0)][1..] == [];
    assert [Opt(QueueFlag, 0)][1..] == [];
  }

  /** `-w 50` is taken and persisted; `-w 150` and `-w 100` are dropped and nothing is written. */
  lemma WindowOverrideScenarios(m: Metadata)
    ensures Apply(AsWritten, m, [Opt(WindowFlag, 50)]) == Outcome(m.(windowSz := 50), [m.(windowSz := 50)], false)
    ensures Apply(AsWritten, m, [Opt(WindowFlag, 150)]) == Outcome(m, [], false)
    ensures Apply(AsWritten, m, [Opt(WindowFlag, 100)]) == Outcome(m, [], false)
  {
    assert [Opt(WindowFlag, 50)][1..] == [];
    assert [Opt(WindowFlag, 150)][1..] == [];
    assert [Opt(WindowFlag, 100)][1..] == [];
  }
}

=== FILE: detector.dfy ===
/**
 Status-bit decoding (`check_event`) and the press/release detector of the poll loop
 in `main`. One poll tick sees one status byte and one reading of the clock.
 */
module Detector {
  import opened Types
  import Window
  import RecordQueue
  import Persist

  type byte = x: nat | x < 256

  /** `EVENT`: the bit number each event is tested on. */
  datatype Event = Off | Pressed

  function BitNumber(e: Event): nat {
    match e
    case Off => 0
    case Pressed => 1
  }

  /** Bitwise AND of two naturals, bit by bit from the least significant. */
  function BitAnd(a: nat, b: nat): nat
    decreases a
  {
    if a == 0 || b == 0 then 0 else 2 * BitAnd(a / 2, b / 2) + (a % 2) * (b % 2)
  }

  function Pow2(k: nat): (p: nat)
    ensures p > 0
  {
    if k == 0 then 1 else 2 * Pow2(k - 1)
  }

  /** Reference reading of bit `k` of `d`: shift right k times, look at the low bit. */
  function Bit(d: nat, k: nat): bool {
    if k == 0 then d % 2 == 1 else Bit(d / 2, k - 1)
  }

  /** Masking with `1 << k` is non-zero exactly when bit k is set. */
  lemma {:induction false} MaskTestsBit(d: nat, k: nat)
    ensures BitAnd(d, Pow2(k)) > 0 <==> Bit(d, k)
  {
    if k > 0 && d > 0 {
      assert Pow2(k) / 2 == Pow2(k - 1) && Pow2(k) % 2 == 0;
      MaskTestsBit(d / 2, k - 1);
    } else if k > 0 {
      assert !Bit(d, k) by { ZeroHasNoBits(k); }
    }
  }

  lemma {:induction false} ZeroHasNoBits(k: nat)
    ensures !Bit(0, k)
  {
    if k > 0 {
      ZeroHasNoBits(k - 1);
    }
  }

  /** `check_event(data, evt)`: mask the byte with `1 << evt`, test for non-zero. */
  function CheckEvent(data: byte, evt: Event): (r: bool)
    ensures r <==> Bit(data, BitNumber(evt))
  {
    MaskTestsBit(data, BitNumber(evt));
    BitAnd(data, Pow2(BitNumber(evt))) > 0
  }

  /** Power-down tests mask 0x01 and "pressed" tests mask 0x02. */
  lemma EventMasks(data: byte)
    ensures CheckEvent(data, Off) <==> data % 2 == 1
    ensures CheckEvent(data, Pressed) <==> (data / 2) % 2 == 1
  {
    assert Bit(data, 1) == Bit(data / 2, 0);
  }

  /** The poll loop's own state: `in_process` and `t_start`. */
  datatype Detector = Detector(inProcess: bool, tStart: int)

  const Idle: Detector := Detector(false, 0)

  /** What one poll tick produces. */
  datatype PollOut = PollOut(
    det: Detector,
    win: Window.WindowState,
    rec: Record,
    queue: RecordQueue.Queue,
    pushed: Option<Record>,
    writes: seq<Persist.FileKind>)

  /** `handle_power_down`: fresh record, then REC and WIN are written. */
  const PowerDownWrites: seq<Persist.FileKind> := [Persist.RecFile, Persist.WinFile]

  /**
   One iteration of the poll loop after the status byte is read: the press/release
   detector, then the level-triggered power-down check.
   */
  function Poll(d: Detector, io: byte, now: int, meta: Metadata,
                win: Window.WindowState, rec: Record, q: RecordQueue.Queue): (r: PollOut)
    requires Window.Shaped(win, meta.windowSz) && RecordQueue.Shaped(q, meta.recQsz)
    ensures Window.Shaped(r.win, meta.windowSz) && RecordQueue.Shaped(r.queue, meta.recQsz)
    // pressed while idle: start timing, nothing else moves
    ensures Bit(io, 1) && !d.inProcess ==>
              r.det == Detector(true, now) && r.win == win && r.queue == q && r.pushed == None
    // released while in process: exactly one window update, one record, one push
    ensures !Bit(io, 1) && d.inProcess ==>
              && r.det == Detector(false, d.tStart)
              && r.win == Window.Update(win, meta.windowSz, now - d.tStart)
              && r.pushed == Some(Window.GetRec(r.win, meta.windowSz))
              && r.queue == RecordQueue.Add(q, meta.recQsz, r.pushed.value)
    // unchanged level: the detector, window and queue stay as they were
    ensures Bit(io, 1) == d.inProcess ==>
              r.det == d && r.win == win && r.queue == q && r.pushed == None
    // power-down is level-triggered, whatever the detector state
    ensures Bit(io, 0) ==> r.writes == PowerDownWrites && r.rec == Window.GetRec(r.win, meta.windowSz)
    ensures !Bit(io, 0) ==> r.writes == [] && r.rec == (if r.pushed.Some? then r.pushed.value else rec)
  {
    var edge :=
      if CheckEvent(io, Pressed) then
        if !d.inProcess then PollOut(Detector(true, now), win, rec, q, None, [])
        else PollOut(d, win, rec, q, None, [])
      else if d.inProcess then
        var w := Window.Update(win, meta.windowSz, now - d.tStart);
        var rc := Window.GetRec(w, meta.windowSz);
        PollOut(d.(inProcess := false), w, rc, RecordQueue.Add(q, meta.recQsz, rc), Some(rc), [])
      else PollOut(d, win, rec, q, None, []);
    if CheckEvent(io, Off) then
      edge.(rec := Window.GetRec(edge.win, meta.windowSz), writes := PowerDownWrites)
    else edge
  }

  /**
   A full cycle: any status byte with "pressed" set seen at `t0`, then any byte with it
   clear seen at `t1` (no power-down bit on either tick), feeds exactly one duration
   `t1 - t0` to the window and pushes the record taken right after it.
   */
  lemma PressReleaseCycle(meta: Metadata, win: Window.WindowState, rec: Record,
                          q: RecordQueue.Queue, press: byte, release: byte, t0: int, t1: int)
    requires Window.Shaped(win, meta.windowSz) && RecordQueue.Shaped(q, meta.recQsz)
    requires Bit(press, 1) && !Bit(press, 0)
    requires !Bit(release, 1) && !Bit(release, 0)
    ensures var p := Poll(Idle, press, t0, meta, win, rec, q);
            var r := Poll(p.det, release, t1, meta, p.win, p.rec, p.queue);
            && r.det == Detector(false, t0)
            && r.win == Window.Update(win, meta.windowSz, t1 - t0)
            && r.pushed == Some(Window.GetRec(r.win, meta.windowSz))
            && r.queue == RecordQueue.Add(q, meta.recQsz, r.pushed.value)
            && r.writes == []
  {
  }

  /**
   While the button stays pressed (any byte with bit 1 set and bit 0 clear) a tick
   changes nothing, however many ticks pass.
   */
  lemma HoldingIsQuiet(d: Detector, io: byte, now: int, meta: Metadata,
                       win: Window.WindowState, rec: Record, q: RecordQueue.Queue)
    requires d.inProcess && Bit(io, 1) && !Bit(io, 0)
    requires Window.Shaped(win, meta.windowSz) && RecordQueue.Shaped(q, meta.recQsz)
    ensures Poll(d, io, now, meta, win, rec, q) == PollOut(d, win, rec, q, None, [])
  {
  }
}

=== FILE: device.dfy ===
/**
 The whole engine as one state: start-up (defaults, the three loads, the command
 line), the poll-loop tick and the scheduler tick, interleaved in any order. A
 `Build` selects, one by one, the program as written or the corrections of its three
 defects: `-w 0` / `-q 0` refused, the window sum recomputed after start-up, and a
 drain that skips overwritten records.
 */
module Device {
  import opened Types
  import Window
  import RecordQueue
  import Persist
  import Detector
  import Scheduler
  import Cmdline

  /** Which validation, sum handling at start-up and drain the program runs with. */
  datatype Build = Build(validation: Cmdline.Validation, drain: Scheduler.DrainPolicy, resyncSum: bool)

  const AsWritten: Build := Build(Cmdline.AsWritten, Scheduler.AsWritten, false)
  const Corrected: Build := Build(Cmdline.RejectZeroSizes, Scheduler.SkipOverwritten, true)

  datatype Sys = Sys(
    meta: Metadata,
    win: Window.WindowState,
    rec: Record,
    queue: RecordQueue.Queue,
    det: Detector.Detector,
    store: Persist.Store)

  function ImageOf(s: Sys): Persist.Image {
    Persist.Image(s.meta, s.win.buf, s.rec)
  }

  /** What every step needs in order to stay inside its arrays and never divide by zero. */
  predicate Ready(s: Sys) {
    && WellFormed(s.meta)
    && Window.Shaped(s.win, s.meta.windowSz)
    && RecordQueue.Shaped(s.queue, s.meta.recQsz)
  }

  /** In bounds, and the queue mirrors `log`, the record of everything ever queued. */
  ghost predicate Tracks(s: Sys, log: seq<Record>) {
    && Ready(s)
    && RecordQueue.Inv(s.queue, s.meta.recQsz, log)
  }

  /** The engine invariant: `Tracks`, and the running window sum matches its slots. */
  ghost predicate Inv(s: Sys, log: seq<Record>) {
    && Tracks(s, log)
    && Window.SumInv(s.win, s.meta.windowSz)
  }

  /**
   What the persisted files must hold for start-up to be safe. The code loads `.meta`
   without any check, so a bad file is not excluded by the program itself.
   */
  predicate StoreFits(st: Persist.Store) {
    && (st.meta.Some? ==> WellFormed(st.meta.value))
    && (st.win.Some? ==> |st.win.value| == WINDOW_SZ)
  }

  /** The `.meta` writes triggered by accepted overrides, in order. */
  function WriteMetas(st: Persist.Store, ms: seq<Metadata>): (r: Persist.Store)
    ensures r.win == st.win && r.rec == st.rec
    ensures r.meta == (if |ms| == 0 then st.meta else Some(ms[|ms| - 1]))
    decreases |ms|
  {
    if |ms| == 0 then st
    else WriteMetas(Persist.Save(st, Persist.MetaFile, Persist.Image(ms[0], [], ZeroRecord)), ms[1..])
  }

  /** The image after `platform_init` and `file_read` of META, WIN and REC. */
  function LoadedImage(st: Persist.Store): (img: Persist.Image)
    requires StoreFits(st)
    ensures WellFormed(img.meta) && |img.window| == WINDOW_SZ
    ensures img.meta == (if st.meta.Some? then st.meta.value else Defaults())
    ensures img.window == (if st.win.Some? then st.win.value else Window.Init().buf)
    ensures img.rec == (if st.rec.Some? then st.rec.value else ZeroRecord)
  {
    var img0 := Persist.Image(Defaults(), Window.Init().buf, ZeroRecord);
    var img1 := Persist.Load(st, Persist.MetaFile, img0);
    var img2 := Persist.Load(st, Persist.WinFile, img1);
    Persist.Load(st, Persist.RecFile, img2)
  }

  /**
   How start-up ends: the process exits on `-h` or an unknown option, leaving behind
   the `.meta` writes of the options accepted before it, or it starts the two loops.
   */
  datatype BootOut = Exited(store: Persist.Store) | Started(sys: Sys)

  /**
   Start-up: defaults, the three loads, the command-line overrides (each accepted one
   persisted at once), then, when the build recomputes it, the running sum for the
   final window size. As written the running sum stays the zero of `platform_init`
   whatever ring was restored, and a zero size can get through; nothing else goes out
   of bounds.
   */
  function Boot(b: Build, st: Persist.Store, opts: seq<Cmdline.Opt>): (r: BootOut)
    requires StoreFits(st)
    ensures r.Started? <==> !exists i :: 0 <= i < |opts| && Cmdline.IsExit(opts[i].flag)
    ensures var out := Cmdline.Apply(b.validation, LoadedImage(st).meta, opts);
            var st' := if r.Exited? then r.store else r.sys.store;
            && st'.meta == (if |out.writes| == 0 then st.meta else Some(out.meta))
            && st'.win == st.win && st'.rec == st.rec
    ensures r.Started? ==>
              && r.sys.meta == Cmdline.Apply(b.validation, LoadedImage(st).meta, opts).meta
              && r.sys.rec == LoadedImage(st).rec
              && r.sys.win.buf == LoadedImage(st).window
              && r.sys.det == Detector.Idle && r.sys.win.total == 0 && r.sys.win.index == 0
    ensures r.Started? && !WellFormed(r.sys.meta) ==>
              b.validation == Cmdline.AsWritten && (r.sys.meta.windowSz == 0 || r.sys.meta.recQsz == 0)
    ensures r.Started? && WellFormed(r.sys.meta) ==> Tracks(r.sys, [])
    ensures r.Started? && WellFormed(r.sys.meta) && b.resyncSum ==> Inv(r.sys, [])
    ensures r.Started? && WellFormed(r.sys.meta) && !b.resyncSum ==>
              r.sys.win.sum == 0 && Window.Drift(r.sys.win, r.sys.meta.windowSz) == -Sum(r.sys.win.buf[..r.sys.meta.windowSz])
  {
    var img := LoadedImage(st);
    var out := Cmdline.Apply(b.validation, img.meta, opts);
    var written := WriteMetas(st, out.writes);
    if out.exited then Exited(written)
    else
      Cmdline.ApplyKeepsMaxima(b.validation, img.meta, opts);
      var restored := Window.Restore(Window.Init(), img.window);
      var ok := WellFormed(out.meta);
      var win := if ok && b.resyncSum then Window.Resync(restored, out.meta.windowSz) else restored;
      assert ok ==> RecordQueue.Inv(RecordQueue.Init(), out.meta.recQsz, []) by {
        if ok { RecordQueue.InitSatisfiesInv(out.meta.recQsz); }
      }
      Started(Sys(out.meta, win, img.rec, RecordQueue.Init(), Detector.Idle, written))
  }

  /**
   `-w 50 -h`: the accepted override is already persisted when `-h` exits, so the next
   start-up loads window size 50.
   */
  lemma ExitKeepsEarlierWrites(st: Persist.Store)
    requires StoreFits(st)
    ensures var r := Boot(AsWritten, st, [Cmdline.Opt(Cmdline.WindowFlag, 50), Cmdline.Opt(Cmdline.HelpFlag, 0)]);
            && r.Exited?
            && StoreFits(r.store)
            && LoadedImage(r.store).meta == LoadedImage(st).meta.(windowSz := 50)
  {
    var opts := [Cmdline.Opt(Cmdline.WindowFlag, 50), Cmdline.Opt(Cmdline.HelpFlag, 0)];
    assert opts[1..] == [Cmdline.Opt(Cmdline.HelpFlag, 0)];
    assert Cmdline.IsExit(opts[1].flag);
  }

  function AsLog(p: Option<Record>): seq<Record> {
    if p.Some? then [p.value] else []
  }

  /** One poll-loop tick: detector, window, queue, and the power-down saves. */
  function PollStep(s: Sys, io: Detector.byte, now: int): (r: (Sys, Option<Record>))
    requires Ready(s)
    ensures Ready(r.0)
    ensures r.0.meta == s.meta
    ensures Detector.Bit(io, 0) ==>
              r.0.store.win == Some(r.0.win.buf) && r.0.store.rec == Some(r.0.rec)
    ensures !Detector.Bit(io, 0) ==> r.0.store == s.store
  {
    var p := Detector.Poll(s.det, io, now, s.meta, s.win, s.rec, s.queue);
    var s' := s.(det := p.det, win := p.win, rec := p.rec, queue := p.queue);
    (s'.(store := Persist.SaveAll(s.store, p.writes, ImageOf(s'))), p.pushed)
  }

  /**
   A poll tick extends the queue log by exactly the record it pushed, if any, and
   leaves the error of the running window sum as it was; so it keeps the engine
   invariant, and as written it keeps a broken sum broken.
   */
  lemma PollPreservesInv(s: Sys, log: seq<Record>, io: Detector.byte, now: int)
    requires Tracks(s, log)
    ensures Tracks(PollStep(s, io, now).0, log + AsLog(PollStep(s, io, now).1))
    ensures Window.Drift(PollStep(s, io, now).0.win, s.meta.windowSz) == Window.Drift(s.win, s.meta.windowSz)
    ensures Inv(s, log) ==> Inv(PollStep(s, io, now).0, log + AsLog(PollStep(s, io, now).1))
  {
    var p := Detector.Poll(s.det, io, now, s.meta, s.win, s.rec, s.queue);
    if p.pushed.Some? {
      Window.UpdateKeepsDrift(s.win, s.meta.windowSz, now - s.det.tStart);
      RecordQueue.AddPreservesInv(s.queue, s.meta.recQsz, log, p.pushed.value);
    } else {
      assert log + [] == log;
    }
  }

  /**
   After a power-down tick, a restart that loads the files gets back exactly the
   window ring and record that were live at the power-down.
   */
  lemma PowerDownThenLoadRestores(s: Sys, io: Detector.byte, now: int, img: Persist.Image)
    requires Ready(s) && Detector.Bit(io, 0)
    ensures var r := PollStep(s, io, now).0;
            && Persist.Load(r.store, Persist.WinFile, img).window == r.win.buf
            && Persist.Load(r.store, Persist.RecFile, img).rec == r.rec
  {
  }

  /**
   One scheduler tick with the build's drain. As written a batch is the whole
   backlog, which can exceed the packet; the corrected drain never does.
   */
  function SchedStep(b: Build, s: Sys, t: Scheduler.Timers, now: int): (r: (Sys, Scheduler.Timers, Option<seq<Record>>))
    requires Ready(s)
    ensures Ready(r.0)
    ensures r.0.meta == s.meta && r.0.win == s.win && r.0.det == s.det
    ensures r.2.Some? ==> |r.2.value| > 0
    ensures r.2.Some? && b.drain == Scheduler.AsWritten ==> |r.2.value| == RecordQueue.Backlog(s.queue)
    ensures r.2.Some? && b.drain == Scheduler.SkipOverwritten ==> |r.2.value| <= RECORD_QSZ
  {
    var k := Scheduler.Tick(b.drain, now, t, s.meta, s.win, s.rec, s.queue);
    var s' := s.(queue := k.queue, rec := k.rec);
    (s'.(store := Persist.SaveAll(s.store, k.writes, ImageOf(s'))), k.timers, k.published)
  }

  /** A scheduler tick keeps the queue log under either drain and never touches the window. */
  lemma SchedPreservesInv(b: Build, s: Sys, log: seq<Record>, t: Scheduler.Timers, now: int)
    requires Tracks(s, log)
    ensures Tracks(SchedStep(b, s, t, now).0, log)
    ensures Inv(s, log) ==> Inv(SchedStep(b, s, t, now).0, log)
  {
    Scheduler.TickKeepsInv(b.drain, now, t, s.meta, s.win, s.rec, s.queue, log);
  }

  /** The two loops' iterations, in whatever order they interleave. */
  datatype Step = PollTick(io: Detector.byte, now: int) | SchedTick(now: int)

  datatype Run = Run(sys: Sys, timers: Scheduler.Timers, pushed: seq<Record>, published: seq<seq<Record>>)

  function Execute(b: Build, s: Sys, t: Scheduler.Timers, steps: seq<Step>): (r: Run)
    requires Ready(s)
    ensures Ready(r.sys) && r.sys.meta == s.meta
    ensures forall i :: 0 <= i < |r.published| ==> |r.published[i]| > 0
    ensures b.drain == Scheduler.SkipOverwritten ==>
              forall i :: 0 <= i < |r.published| ==> |r.published[i]| <= RECORD_QSZ
    decreases |steps|
  {
    if |steps| == 0 then Run(s, t, [], [])
    else
      var last := steps[|steps| - 1];
      var prev := Execute(b, s, t, steps[..|steps| - 1]);
      match last
      case PollTick(io, now) =>
        var (s', p) := PollStep(prev.sys, io, now);
        Run(s', prev.timers, prev.pushed + AsLog(p), prev.published)
      case SchedTick(now) =>
        var (s', t', k) := SchedStep(b, prev.sys, prev.timers, now);
        Run(s', t', prev.pushed, prev.published + (if k.Some? then [k.value] else []))
  }

  /**
   Any interleaving of poll and scheduler ticks, under either build, keeps the queue
   mirroring everything pushed during the run and leaves the error of the running
   window sum exactly as it started; so from a state with the sum invariant it keeps
   the engine invariant.
   */
  lemma {:induction false} ExecutePreservesInv(b: Build, s: Sys, log: seq<Record>, t: Scheduler.Timers, steps: seq<Step>)
    requires Tracks(s, log)
    ensures Tracks(Execute(b, s, t, steps).sys, log + Execute(b, s, t, steps).pushed)
    ensures Window.Drift(Execute(b, s, t, steps).sys.win, s.meta.windowSz) == Window.Drift(s.win, s.meta.windowSz)
    ensures Inv(s, log) ==> Inv(Execute(b, s, t, steps).sys, log + Execute(b, s, t, steps).pushed)
    decreases |steps|
  {
    if |steps| == 0 {
      assert log + [] == log;
    } else {
      var prev := Execute(b, s, t, steps[..|steps| - 1]);
      ExecutePreservesInv(b, s, log, t, steps[..|steps| - 1]);
      match steps[|steps| - 1]
      case PollTick(io, now) =>
        PollPreservesInv(prev.sys, log + prev.pushed, io, now);
        assert log + prev.pushed + AsLog(PollStep(prev.sys, io, now).1)
            == log + (prev.pushed + AsLog(PollStep(prev.sys, io, now).1));
      case SchedTick(now) =>
        SchedPreservesInv(b, prev.sys, log + prev.pushed, prev.timers, now);
    }
  }

  /**
   From a successful start-up every reachable state keeps the queue mirroring the
   records pushed so far. With the corrected build the configuration is in bounds and
   the engine invariant holds throughout. As written, once the configuration is in
   bounds, the running sum stays short by the restored window's active sum forever.
   */
  lemma BootThenAnyRun(b: Build, st: Persist.Store, opts: seq<Cmdline.Opt>, t: Scheduler.Timers, steps: seq<Step>)
    requires StoreFits(st) && Boot(b, st, opts).Started?
    ensures var s0 := Boot(b, st, opts).sys;
            WellFormed(s0.meta) ==>
              var e := Execute(b, s0, t, steps);
              && Tracks(e.sys, e.pushed)
              && (b.resyncSum ==> Inv(e.sys, e.pushed))
              && (!b.resyncSum ==> Window.Drift(e.sys.win, s0.meta.windowSz) == -Sum(s0.win.buf[..s0.meta.windowSz]))
    ensures b.validation == Cmdline.RejectZeroSizes ==> WellFormed(Boot(b, st, opts).sys.meta)
  {
    var s0 := Boot(b, st, opts).sys;
    if WellFormed(s0.meta) {
      ExecutePreservesInv(b, s0, [], t, steps);
      assert [] + Execute(b, s0, t, steps).pushed == Execute(b, s0, t, steps).pushed;
    }
  }

  /** The corrected build: every reachable state satisfies the engine invariant and every batch fits. */
  lemma CorrectedBootThenAnyRun(st: Persist.Store, opts: seq<Cmdline.Opt>, t: Scheduler.Timers, steps: seq<Step>)
    requires StoreFits(st) && Boot(Corrected, st, opts).Started?
    ensures WellFormed(Boot(Corrected, st, opts).sys.meta)
    ensures var e := Execute(Corrected, Boot(Corrected, st, opts).sys, t, steps);
            && Inv(e.sys, e.pushed)
            && forall i :: 0 <= i < |e.published| ==> |e.published[i]| <= RECORD_QSZ
  {
    BootThenAnyRun(Corrected, st, opts, t, steps);
  }

  /**
   The program as written: when the persisted window's active slots do not sum to 0,
   no state reachable from start-up satisfies the running-sum invariant.
   */
  lemma AsWrittenSumNeverRecovers(st: Persist.Store, opts: seq<Cmdline.Opt>, t: Scheduler.Timers, steps: seq<Step>)
    requires StoreFits(st) && Boot(AsWritten, st, opts).Started?
    ensures var s0 := Boot(AsWritten, st, opts).sys;
            WellFormed(s0.meta) && st.win.Some? && Sum(st.win.value[..s0.meta.windowSz]) != 0 ==>
              !Window.SumInv(Execute(AsWritten, s0, t, steps).sys.win, s0.meta.windowSz)
  {
    BootThenAnyRun(AsWritten, st, opts, t, steps);
  }
}

=== FILE: persist.dfy ===
/**
 The three persisted artifacts (`.meta`, `.win`, `.rec`) as an abstract store. A file
 that is absent or empty is `None`. Each save overwrites one artifact wholesale with
 the in-memory image; each load replaces one part of the image when its file has data.
 */
module Persist {
  import opened Types

  /** `FILE_TYPE`: TYPE_META, TYPE_WIN, TYPE_REC. */
  datatype FileKind = MetaFile | WinFile | RecFile

  datatype Store = Store(meta: Option<Metadata>, win: Option<seq<int>>, rec: Option<Record>)

  /** The in-memory globals the files mirror: `g_meta`, `g_window`, `g_rec`. */
  datatype Image = Image(meta: Metadata, window: seq<int>, rec: Record)

  const EmptyStore: Store := Store(None, None, None)

  /** The file named `kind` exists and holds data. */
  predicate Has(st: Store, kind: FileKind) {
    match kind
    case MetaFile => st.meta.Some?
    case WinFile => st.win.Some?
    case RecFile => st.rec.Some?
  }

  /** `file_write(kind)`: overwrite one file with the matching part of the image. */
  function Save(st: Store, kind: FileKind, img: Image): (r: Store)
    ensures Has(r, kind)
    ensures kind != MetaFile ==> r.meta == st.meta
    ensures kind != WinFile ==> r.win == st.win
    ensures kind != RecFile ==> r.rec == st.rec
  {
    match kind
    case MetaFile => st.(meta := Some(img.meta))
    case WinFile => st.(win := Some(img.window))
    case RecFile => st.(rec := Some(img.rec))
  }

  /** Several `file_write` calls in order. */
  function SaveAll(st: Store, kinds: seq<FileKind>, img: Image): (r: Store)
    ensures RecFile in kinds ==> r.rec == Some(img.rec)
    ensures WinFile in kinds ==> r.win == Some(img.window)
    ensures MetaFile in kinds ==> r.meta == Some(img.meta)
    ensures RecFile !in kinds ==> r.rec == st.rec
    ensures WinFile !in kinds ==> r.win == st.win
    ensures MetaFile !in kinds ==> r.meta == st.meta
    decreases |kinds|
  {
    if |kinds| == 0 then st
    else
      assert forall k :: k in kinds[1..] ==> k in kinds;
      SaveAll(Save(st, kinds[0], img), kinds[1..], img)
  }

  /**
   `file_read(kind)`: an absent or empty file leaves the image as it was; otherwise
   only the part named by `kind` changes, to exactly what the file holds, so writing
   the result back would leave the store as it is.
   */
  function Load(st: Store, kind: FileKind, img: Image): (r: Image)
    ensures !Has(st, kind) ==> r == img
    ensures forall k :: k != kind ==> SamePart(k, r, img)
    ensures Has(st, kind) ==> Save(st, kind, r) == st
  {
    match kind
    case MetaFile => if st.meta.Some? then img.(meta := st.meta.value) else img
    case WinFile => if st.win.Some? then img.(window := st.win.value) else img
    case RecFile => if st.rec.Some? then img.(rec := st.rec.value) else img
  }

  /** Two images that agree on the part stored under `kind`. */
  predicate SamePart(kind: FileKind, a: Image, b: Image) {
    match kind
    case MetaFile => a.meta == b.meta
    case WinFile => a.window == b.window
    case RecFile => a.rec == b.rec
  }

  /**
   Round trip: loading what was just saved restores exactly the saved part and
   leaves the rest of the image alone.
   */
  lemma SaveLoadRoundTrip(st: Store, kind: FileKind, saved: Image, current: Image)
    ensures SamePart(kind, Load(Save(st, kind, saved), kind, current), saved)
    ensures forall k :: k != kind ==> SamePart(k, Load(Save(st, kind, saved), kind, current), current)
    ensures Load(Save(st, kind, saved), kind, saved) == saved
  {
  }

  /** Loading from a store without data is the identity, and so idempotent. */
  lemma LoadMissingIsIdentity(kind: FileKind, img: Image)
    ensures Load(EmptyStore, kind, img) == img
    ensures Load(EmptyStore, kind, Load(EmptyStore, kind, img)) == img
  {
  }
}

=== FILE: record_queue.dfy ===
/**
 The record ring queue (`queue_add` / `queue_get`): a ring of RECORD_QSZ slots of
 which the first `cap` (the configured `rec_qsz`) are used, two cursors kept modulo
 `cap`, and two lifetime counters that are never reset.
 */
module RecordQueue {
  import opened Types
  import Ring

  datatype Queue = Queue(slots: seq<Record>, wIdx: nat, rIdx: nat, wCnt: nat, rCnt: nat)

  /** The geometry `queue_add` / `queue_get` rely on without checking it. */
  predicate Shaped(q: Queue, cap: nat) {
    && 0 < cap <= RECORD_QSZ
    && |q.slots| == RECORD_QSZ
    && q.wIdx < cap
    && q.rIdx < cap
  }

  /** Records written but not yet read, as the counters see it. */
  function Backlog(q: Queue): nat {
    if q.wCnt > q.rCnt then q.wCnt - q.rCnt else 0
  }

  /**
   The abstraction: `log` is every record ever added, the counters agree with the
   cursors, and the slots hold the last `cap` records of `log`.
   */
  ghost predicate Inv(q: Queue, cap: nat, log: seq<Record>) {
    && Shaped(q, cap)
    && |log| == q.wCnt
    && q.rCnt <= q.wCnt
    && q.wIdx == q.wCnt % cap
    && q.rIdx == q.rCnt % cap
    && Ring.Mirrors(q.slots, cap, log)
  }

  /** The zeroed queue `platform_init` establishes. */
  function Init(): Queue {
    Queue(seq(RECORD_QSZ, _ => ZeroRecord), 0, 0, 0, 0)
  }

  lemma InitSatisfiesInv(cap: nat)
    requires 0 < cap <= RECORD_QSZ
    ensures Inv(Init(), cap, [])
  {
  }

  /** `queue_add`: always succeeds, overwriting whatever the write cursor points at. */
  function Add(q: Queue, cap: nat, rec: Record): (r: Queue)
    requires Shaped(q, cap)
    ensures Shaped(r, cap)
    ensures r.wCnt == q.wCnt + 1
    ensures r.wIdx == (q.wIdx + 1) % cap
    ensures r.slots[q.wIdx] == rec
    ensures forall i :: 0 <= i < |q.slots| && i != q.wIdx ==> r.slots[i] == q.slots[i]
    ensures r.rIdx == q.rIdx && r.rCnt == q.rCnt
  {
    Queue(q.slots[q.wIdx := rec], (q.wIdx + 1) % cap, q.rIdx, q.wCnt + 1, q.rCnt)
  }

  /** Adding extends the abstract log by exactly the added record. */
  lemma AddPreservesInv(q: Queue, cap: nat, log: seq<Record>, rec: Record)
    requires Inv(q, cap, log)
    ensures Inv(Add(q, cap, rec), cap, log + [rec])
  {
    Ring.ModStep(q.wCnt, cap);
    Ring.MirrorsAfterWrite(q.slots, cap, log, rec);
  }

  /** Several `queue_add` calls in order, with no read in between. */
  function AddAll(q: Queue, cap: nat, rs: seq<Record>): (r: Queue)
    requires Shaped(q, cap)
    ensures Shaped(r, cap)
    ensures r.wCnt == q.wCnt + |rs|
    ensures r.rIdx == q.rIdx && r.rCnt == q.rCnt
    decreases |rs|
  {
    if |rs| == 0 then q
    else Add(AddAll(q, cap, rs[..|rs| - 1]), cap, rs[|rs| - 1])
  }

  /** Adding a run of records extends the abstract log by exactly that run. */
  lemma {:induction false} AddAllPreservesInv(q: Queue, cap: nat, log: seq<Record>, rs: seq<Record>)
    requires Inv(q, cap, log)
    ensures Inv(AddAll(q, cap, rs), cap, log + rs)
    decreases |rs|
  {
    if |rs| == 0 {
      assert log + rs == log;
    } else {
      var n := |rs| - 1;
      AddAllPreservesInv(q, cap, log, rs[..n]);
      AddPreservesInv(AddAll(q, cap, rs[..n]), cap, log + rs[..n], rs[n]);
      assert log + rs[..n] + [rs[n]] == log + rs;
    }
  }

  /** The outcome of `queue_get`: the record copied out (if any) and the queue after. */
  datatype Pop = Pop(item: Option<Record>, queue: Queue)

  /** `queue_get`: empty when the read count has caught up, else read and advance. */
  function Get(q: Queue, cap: nat): (r: Pop)
    requires Shaped(q, cap)
    ensures Shaped(r.queue, cap)
    ensures q.rCnt >= q.wCnt ==> r.item == None && r.queue == q
    ensures q.rCnt < q.wCnt ==>
              && r.item == Some(q.slots[q.rIdx])
              && r.queue.rCnt == q.rCnt + 1
              && r.queue.rIdx == (q.rIdx + 1) % cap
    ensures r.queue.slots == q.slots && r.queue.wIdx == q.wIdx && r.queue.wCnt == q.wCnt
  {
    if q.rCnt < q.wCnt then
      Pop(Some(q.slots[q.rIdx]), q.(rCnt := q.rCnt + 1, rIdx := (q.rIdx + 1) % cap))
    else
      Pop(None, q)
  }

  /** While the consumer is at most `cap` behind, a read returns the oldest unread record. */
  lemma GetInOrder(q: Queue, cap: nat, log: seq<Record>)
    requires Inv(q, cap, log) && Backlog(q) <= cap
    ensures Get(q, cap).item == (if q.rCnt < q.wCnt then Some(log[q.rCnt]) else None)
    ensures Inv(Get(q, cap).queue, cap, log)
  {
    Ring.ModStep(q.rCnt, cap);
    if q.rCnt < q.wCnt {
      assert Ring.Oldest(|log|, cap) <= q.rCnt;
    }
  }

  /** Reading never disturbs the abstraction, whatever the backlog. */
  lemma GetPreservesInv(q: Queue, cap: nat, log: seq<Record>)
    requires Inv(q, cap, log)
    ensures Inv(Get(q, cap).queue, cap, log)
  {
    Ring.ModStep(q.rCnt, cap);
  }

  /** The batch `queue_get` yields when called until it fails, and the queue after. */
  datatype Drained = Drained(batch: seq<Record>, queue: Queue)

  /** Repeated `queue_get` until it returns false. */
  function Drain(q: Queue, cap: nat): (r: Drained)
    requires Shaped(q, cap)
    ensures Shaped(r.queue, cap)
    ensures |r.batch| == Backlog(q)
    ensures Backlog(r.queue) == 0
    ensures r.queue.rCnt == (if q.rCnt < q.wCnt then q.wCnt else q.rCnt)
    ensures r.queue.slots == q.slots && r.queue.wIdx == q.wIdx && r.queue.wCnt == q.wCnt
    decreases Backlog(q)
  {
    var p := Get(q, cap);
    match p.item
    case None => Drained([], q)
    case Some(rec) =>
      var rest := Drain(p.queue, cap);
      Drained([rec] + rest.batch, rest.queue)
  }

  /**
   The code skips nothing: the i-th drained record comes from slot `(rIdx + i) mod cap`,
   so a consumer more than `cap` behind re-reads slots instead of skipping the
   overwritten ones, and the read cursor ends `Backlog` steps further on.
   */
  lemma {:induction false} DrainReadsSlots(q: Queue, cap: nat)
    requires Shaped(q, cap)
    ensures forall i :: 0 <= i < |Drain(q, cap).batch| ==> Drain(q, cap).batch[i] == q.slots[(q.rIdx + i) % cap]
    ensures Drain(q, cap).queue.rIdx == (q.rIdx + Backlog(q)) % cap
    decreases Backlog(q)
  {
    Ring.ModUnique(q.rIdx, 0, q.rIdx, cap);
    var p := Get(q, cap);
    if q.rCnt < q.wCnt {
      var rest := Drain(p.queue, cap);
      DrainReadsSlots(p.queue, cap);
      var batch := Drain(q, cap).batch;
      assert batch == [q.slots[q.rIdx]] + rest.batch;
      forall i | 1 <= i < |batch|
        ensures batch[i] == q.slots[(q.rIdx + i) % cap]
      {
        Ring.ModAdd(q.rIdx + 1, i - 1, cap);
      }
      Ring.ModAdd(q.rIdx + 1, Backlog(q) - 1, cap);
    }
  }

  /**
   First-in first-out: while the consumer is at most `cap` behind, draining yields
   exactly the unread part of the log, in the order it was added.
   */
  lemma DrainInOrder(q: Queue, cap: nat, log: seq<Record>)
    requires Inv(q, cap, log) && Backlog(q) <= cap
    ensures Drain(q, cap).batch == log[q.rCnt..]
    ensures Inv(Drain(q, cap).queue, cap, log)
  {
    var r := Drain(q, cap);
    DrainReadsSlots(q, cap);
    forall i | 0 <= i < |r.batch|
      ensures r.batch[i] == log[q.rCnt + i]
    {
      Ring.ModAdd(q.rCnt, i, cap);
      assert Ring.Oldest(|log|, cap) <= q.rCnt + i;
    }
    Ring.ModAdd(q.rCnt, Backlog(q), cap);
  }

  /** The drain as written keeps the abstraction too, whatever the backlog. */
  lemma {:induction false} DrainPreservesInv(q: Queue, cap: nat, log: seq<Record>)
    requires Inv(q, cap, log)
    ensures Inv(Drain(q, cap).queue, cap, log)
    decreases Backlog(q)
  {
    var p := Get(q, cap);
    GetPreservesInv(q, cap, log);
    if p.item.Some? {
      DrainPreservesInv(p.queue, cap, log);
    }
  }

  /** Queue of capacity 2 fed A, B, C with no read in between: the code yields C, B, C. */
  lemma OverflowRereadExample()
    ensures var a, b, c := Record(1, 0, 1), Record(2, 0, 2), Record(3, 0, 3);
            Drain(Add(Add(Add(Init(), 2, a), 2, b), 2, c), 2).batch == [c, b, c]
  {
    var a, b, c := Record(1, 0, 1), Record(2, 0, 2), Record(3, 0, 3);
    var q := Add(Add(Add(Init(), 2, a), 2, b), 2, c);
    assert q.slots[0] == c && q.slots[1] == b && q.rIdx == 0 && Backlog(q) == 3;
    DrainReadsSlots(q, 2);
    var batch := Drain(q, 2).batch;
    assert batch[0] == q.slots[0 % 2];
    assert batch[1] == q.slots[1 % 2];
    assert batch[2] == q.slots[2 % 2];
  }

  /**
   The evident intent when the producer is more than `cap` ahead: move the consumer up
   to the oldest record still resident, so overwritten slots are skipped, not re-read.
   */
  function Catchup(q: Queue, cap: nat): (r: Queue)
    requires Shaped(q, cap)
    ensures Shaped(r, cap)
    ensures Backlog(r) <= cap
    ensures Backlog(q) <= cap ==> r == q
    ensures r.slots == q.slots && r.wIdx == q.wIdx && r.wCnt == q.wCnt
  {
    if Backlog(q) > cap then q.(rCnt := q.wCnt - cap, rIdx := q.wIdx) else q
  }

  /** The corrected drain: one catch-up, after which every further read is a plain `Get`. */
  function DrainSkipping(q: Queue, cap: nat): (r: Drained)
    requires Shaped(q, cap)
    ensures Shaped(r.queue, cap)
    ensures |r.batch| <= cap
    ensures Backlog(r.queue) == 0
  {
    Drain(Catchup(q, cap), cap)
  }

  lemma CatchupPreservesInv(q: Queue, cap: nat, log: seq<Record>)
    requires Inv(q, cap, log)
    ensures Inv(Catchup(q, cap), cap, log)
    ensures Catchup(q, cap).rCnt == if Backlog(q) > cap then q.wCnt - cap else q.rCnt
  {
    if Backlog(q) > cap {
      Ring.ModShift(q.wCnt - cap, cap);
    }
  }

  /**
   With the correction, draining yields exactly the records that survive in the
   ring, oldest first: never more than `cap`, never a re-read.
   */
  lemma DrainSkippingYieldsSurvivors(q: Queue, cap: nat, log: seq<Record>)
    requires Inv(q, cap, log)
    ensures var from := if Backlog(q) > cap then q.wCnt - cap else q.rCnt;
            DrainSkipping(q, cap).batch == log[from..]
    ensures Inv(DrainSkipping(q, cap).queue, cap, log)
  {
    CatchupPreservesInv(q, cap, log);
    DrainInOrder(Catchup(q, cap), cap, log);
  }

  /** Capacity 2 fed A, B, C: the corrected drain yields B, C and then nothing. */
  lemma SkippingExample()
    ensures var a, b, c := Record(1, 0, 1), Record(2, 0, 2), Record(3, 0, 3);
            var d := DrainSkipping(Add(Add(Add(Init(), 2, a), 2, b), 2, c), 2);
            d.batch == [b, c] && Get(d.queue, 2).item == None
  {
    var a, b, c := Record(1, 0, 1), Record(2, 0, 2), Record(3, 0, 3);
    InitSatisfiesInv(2);
    AddPreservesInv(Init(), 2, [], a);
    AddPreservesInv(Add(Init(), 2, a), 2, [a], b);
    AddPreservesInv(Add(Add(Init(), 2, a), 2, b), 2, [a, b], c);
    var q := Add(Add(Add(Init(), 2, a), 2, b), 2, c);
    assert [a] + [b] + [c] == [a, b, c];
    DrainSkippingYieldsSurvivors(q, 2, [a, b, c]);
    assert [a, b, c][1..] == [b, c];
  }
}

=== FILE: ring.dfy ===
/**
 The ring-buffer discipline shared by the sliding window and the record queue: a
 writer that puts its n-th entry into slot `n % cap` leaves the slots holding the
 most recent `cap` entries of everything it ever wrote.
 */
module Ring {

  /** Index of the oldest entry still resident after `n` writes into `cap` slots. */
  function Oldest(n: nat, cap: nat): (k: nat)
    ensures k <= n
    ensures n <= cap ==> k == 0
    ensures n > cap ==> n - k == cap
  {
    if n > cap then n - cap else 0
  }

  /** The slots hold the last `cap` entries of `log`, entry k in slot k mod cap. */
  ghost predicate Mirrors<T>(slots: seq<T>, cap: nat, log: seq<T>) {
    && 0 < cap <= |slots|
    && forall k :: Oldest(|log|, cap) <= k < |log| ==> slots[k % cap] == log[k]
  }

  /** Once `cap` entries exist, the next write lands on the oldest resident entry. */
  lemma NextSlotHoldsOldest<T>(slots: seq<T>, cap: nat, log: seq<T>)
    requires Mirrors(slots, cap, log) && |log| >= cap
    ensures slots[|log| % cap] == log[|log| - cap]
  {
    var lo := |log| - cap;
    assert Oldest(|log|, cap) <= lo;
    ModShift(lo, cap);
    assert lo + cap == |log|;
  }

  /** Two distinct positions less than `cap` apart never share a slot. */
  lemma SameSlotFarApart(k: nat, n: nat, cap: nat)
    requires 0 < cap && k < n
    ensures k % cap == n % cap ==> cap <= n - k
  {
    if k % cap == n % cap {
      var a, b := k / cap, n / cap;
      assert n - k == b * cap - a * cap;
      MulSub(b, a, cap);
      var d := b - a;
      assert n - k == d * cap;
      PositiveFactor(d, cap);
    }
  }

  lemma MulSub(b: int, a: int, c: int)
    ensures b * c - a * c == (b - a) * c
  {
  }

  lemma PositiveFactor(d: int, c: nat)
    requires c > 0
    ensures d * c > 0 ==> d * c >= c
  {
    if d <= 0 {
      MulNonPositive(d, c);
    } else {
      MulAtLeast(d, c);
    }
  }

  lemma MulNonPositive(d: int, c: nat)
    requires d <= 0
    ensures d * c <= 0
  {
  }

  lemma MulAtLeast(d: int, c: nat)
    requires d >= 1
    ensures d * c >= c
  {
  }

  /** Writing the next entry into slot `|log| % cap` keeps the mirror. */
  lemma {:induction false} MirrorsAfterWrite<T>(slots: seq<T>, cap: nat, log: seq<T>, x: T)
    requires Mirrors(slots, cap, log)
    ensures Mirrors(slots[|log| % cap := x], cap, log + [x])
  {
    var n := |log|;
    var slots', log' := slots[n % cap := x], log + [x];
    forall k | Oldest(|log'|, cap) <= k < |log'|
      ensures slots'[k % cap] == log'[k]
    {
      if k < n {
        SameSlotFarApart(k, n, cap);
        assert slots'[k % cap] == slots[k % cap];
      }
    }
  }

  /** Division by a positive `c` has a unique quotient and remainder. */
  lemma ModUnique(a: nat, q: nat, r: nat, c: nat)
    requires c > 0 && r < c && a == q * c + r
    ensures a % c == r
  {
    var q', r' := a / c, a % c;
    assert a == q' * c + r';
    MulSub(q, q', c);
    var d := q - q';
    assert d * c == r' - r;
    PositiveFactor(d, c);
    PositiveFactor(-d, c);
    NegateMul(d, c);
    ZeroProduct(d, c);
  }

  lemma NegateMul(d: int, c: int)
    ensures (-d) * c == -(d * c)
  {
  }

  lemma ZeroProduct(d: int, c: nat)
    requires c > 0
    ensures d * c == 0 ==> d == 0
  {
    if d > 0 {
      MulAtLeast(d, c);
    } else if d < 0 {
      MulAtLeast(-d, c);
      NegateMul(d, c);
    }
  }

  lemma ModSplit(a: nat, c: nat)
    requires c > 0
    ensures a == (a / c) * c + a % c && 0 <= a % c < c
  {
  }

  /** Advancing a cursor kept modulo `c` agrees with advancing the raw counter. */
  lemma ModStep(a: nat, c: nat)
    requires c > 0
    ensures (a % c + 1) % c == (a + 1) % c
  {
    ModSplit(a, c);
    var q, r := a / c, a % c;
    if r + 1 < c {
      ModUnique(a + 1, q, r + 1, c);
      ModUnique(r + 1, 0, r + 1, c);
    } else {
      assert a + 1 == (q + 1) * c + 0;
      ModUnique(a + 1, q + 1, 0, c);
      ModUnique(r + 1, 1, 0, c);
    }
  }

  /** Adding `c` does not change the slot. */
  lemma ModShift(k: nat, c: nat)
    requires c > 0
    ensures (k + c) % c == k % c
  {
    ModSplit(k, c);
    assert k + c == (k / c + 1) * c + k % c;
    ModUnique(k + c, k / c + 1, k % c, c);
  }

  /** Advancing a cursor kept modulo `c` by `b` steps agrees with the raw counter. */
  lemma {:induction false} ModAdd(a: nat, b: nat, c: nat)
    requires c > 0
    ensures (a % c + b) % c == (a + b) % c
    decreases b
  {
    if b == 0 {
      ModSplit(a, c);
      ModUnique(a % c, 0, a % c, c);
    } else {
      ModAdd(a, b - 1, c);
      ModStep(a % c + b - 1, c);
      ModStep(a + b - 1, c);
    }
  }
}

=== FILE: scheduler.dfy ===
/**
 One iteration of `event_handler`'s loop: the transmit timer drains the record queue
 into a batch and publishes it when non-empty; the save timer takes a fresh record
 and writes REC then WIN. The clock reading `now` is a parameter.
 */
module Scheduler {
  import opened Types
  import Window
  import RecordQueue
  import Persist

  /** `t_lastTx` and `t_lastRom`. */
  datatype Timers = Timers(lastTx: int, lastRom: int)

  /** How the drain treats a consumer that is more than `rec_qsz` behind. */
  datatype DrainPolicy = AsWritten | SkipOverwritten

  function DrainBy(policy: DrainPolicy, q: RecordQueue.Queue, cap: nat): (r: RecordQueue.Drained)
    requires RecordQueue.Shaped(q, cap)
    ensures RecordQueue.Shaped(r.queue, cap)
    ensures RecordQueue.Backlog(r.queue) == 0
  {
    match policy
    case AsWritten => RecordQueue.Drain(q, cap)
    case SkipOverwritten => RecordQueue.DrainSkipping(q, cap)
  }

  datatype TickOut = TickOut(
    timers: Timers,
    txFired: bool,
    saveFired: bool,
    queue: RecordQueue.Queue,
    published: Option<seq<Record>>,
    rec: Record,
    writes: seq<Persist.FileKind>)

  /** The save timer writes the record first, then the window. */
  const SaveWrites: seq<Persist.FileKind> := [Persist.RecFile, Persist.WinFile]

  /** One scheduler tick at time `now`. */
  function Tick(policy: DrainPolicy, now: int, t: Timers, meta: Metadata,
                win: Window.WindowState, rec: Record, q: RecordQueue.Queue): (r: TickOut)
    requires meta.windowSz > 0 && RecordQueue.Shaped(q, meta.recQsz)
    ensures RecordQueue.Shaped(r.queue, meta.recQsz)
    // the transmit timer
    ensures r.txFired <==> now - t.lastTx >= meta.txFreqSec
    ensures r.timers.lastTx == (if r.txFired then now else t.lastTx)
    ensures r.txFired ==> RecordQueue.Backlog(r.queue) == 0
    ensures r.txFired ==> r.queue == DrainBy(policy, q, meta.recQsz).queue
    ensures !r.txFired ==> r.queue == q && r.published == None
    ensures r.published.Some? <==> r.txFired && |DrainBy(policy, q, meta.recQsz).batch| > 0
    ensures r.published.Some? ==> r.published.value == DrainBy(policy, q, meta.recQsz).batch
    // the save timer
    ensures r.saveFired <==> now - t.lastRom >= meta.saveFreqSec
    ensures r.timers.lastRom == (if r.saveFired then now else t.lastRom)
    ensures r.saveFired ==> r.rec == Window.GetRec(win, meta.windowSz) && r.writes == SaveWrites
    ensures !r.saveFired ==> r.rec == rec && r.writes == []
  {
    var txFired := now - t.lastTx >= meta.txFreqSec;
    var drained := if txFired then DrainBy(policy, q, meta.recQsz) else RecordQueue.Drained([], q);
    var published := if |drained.batch| > 0 then Some(drained.batch) else None;
    var saveFired := now - t.lastRom >= meta.saveFreqSec;
    TickOut(
      Timers(if txFired then now else t.lastTx, if saveFired then now else t.lastRom),
      txFired, saveFired, drained.queue, published,
      if saveFired then Window.GetRec(win, meta.windowSz) else rec,
      if saveFired then SaveWrites else [])
  }

  /**
   As written, a firing transmit timer publishes every record the counters say is
   unread, `wCnt - rCnt` of them, and the next `queue_get` reports empty.
   */
  lemma TickPublishesBacklog(now: int, t: Timers, meta: Metadata,
                             win: Window.WindowState, rec: Record, q: RecordQueue.Queue)
    requires meta.windowSz > 0 && RecordQueue.Shaped(q, meta.recQsz)
    requires now - t.lastTx >= meta.txFreqSec
    ensures var r := Tick(AsWritten, now, t, meta, win, rec, q);
            && (r.published.Some? <==> RecordQueue.Backlog(q) > 0)
            && (r.published.Some? ==> |r.published.value| == RecordQueue.Backlog(q))
            && RecordQueue.Get(r.queue, meta.recQsz).item == None
  {
  }

  /** `PACKET`: the record count and the RECORD_QSZ-entry array `publish_data` writes out. */
  datatype Packet = Packet(sz: nat, arr: seq<Record>)

  /**
   The packet `publish_data` sends for a drained batch: `sz` counts every record the
   loop copied, but the array holds only RECORD_QSZ entries, so records past the 20th
   land outside `g_packet` and are never sent. The rest of the zeroed array stays zero.
   */
  function Emit(batch: seq<Record>): (p: Packet)
    ensures p.sz == |batch| && |p.arr| == RECORD_QSZ
    ensures forall i :: 0 <= i < |batch| && i < RECORD_QSZ ==> p.arr[i] == batch[i]
    ensures forall i :: |batch| <= i < RECORD_QSZ ==> p.arr[i] == ZeroRecord
  {
    var k := if |batch| < RECORD_QSZ then |batch| else RECORD_QSZ;
    Packet(|batch|, batch[..k] + seq(RECORD_QSZ - k, _ => ZeroRecord))
  }

  /** What a receiver reads back from a packet: its first `sz` entries, as far as the array goes. */
  function Received(p: Packet): seq<Record>
    requires |p.arr| == RECORD_QSZ
  {
    if p.sz <= RECORD_QSZ then p.arr[..p.sz] else p.arr
  }

  /**
   A batch survives publishing exactly when it fits the packet; a longer one loses every
   record after the 20th.
   */
  lemma EmitRoundTrip(batch: seq<Record>)
    ensures Received(Emit(batch)) == batch <==> |batch| <= RECORD_QSZ
    ensures |batch| > RECORD_QSZ ==> Received(Emit(batch)) == batch[..RECORD_QSZ]
  {
    var r := Received(Emit(batch));
    if |batch| <= RECORD_QSZ {
      assert r == batch;
    } else {
      assert r == batch[..RECORD_QSZ];
      assert |r| != |batch|;
    }
  }

  /**
   The drain loop with the packet it fills: `g_packet` is zeroed, then record `idx`
   goes to `arr[idx]` with no bound check. Staying inside the RECORD_QSZ-entry array
   is exactly what the backlog precondition buys.
   */
  method DrainIntoPacket(q: RecordQueue.Queue, cap: nat) returns (arr: seq<Record>, sz: nat, rest: RecordQueue.Queue)
    requires RecordQueue.Shaped(q, cap)
    requires RecordQueue.Backlog(q) <= RECORD_QSZ
    ensures |arr| == RECORD_QSZ
    ensures sz == RecordQueue.Backlog(q)
    ensures arr[..sz] == RecordQueue.Drain(q, cap).batch
    ensures forall i :: sz <= i < RECORD_QSZ ==> arr[i] == ZeroRecord
    ensures rest == RecordQueue.Drain(q, cap).queue
  {
    arr := seq(RECORD_QSZ, _ => ZeroRecord);
    sz := 0;
    var cur := q;
    var p := RecordQueue.Get(cur, cap);
    while p.item.Some?
      invariant RecordQueue.Shaped(cur, cap)
      invariant p == RecordQueue.Get(cur, cap)
      invariant |arr| == RECORD_QSZ
      invariant sz + RecordQueue.Backlog(cur) == RecordQueue.Backlog(q)
      invariant RecordQueue.Drain(q, cap).batch == arr[..sz] + RecordQueue.Drain(cur, cap).batch
      invariant RecordQueue.Drain(cur, cap).queue == RecordQueue.Drain(q, cap).queue
      invariant forall i :: sz <= i < RECORD_QSZ ==> arr[i] == ZeroRecord
      decreases RecordQueue.Backlog(cur)
    {
      arr := arr[sz := p.item.value];
      sz := sz + 1;
      cur := p.queue;
      p := RecordQueue.Get(cur, cap);
    }
    rest := cur;
  }

  /**
   The zeroed array the drain loop fills, read as a packet, is `Emit` of the batch: the
   loop and `Emit` describe the same packet whenever the batch fits.
   */
  lemma PacketIsEmit(arr: seq<Record>, sz: nat, batch: seq<Record>)
    requires |arr| == RECORD_QSZ && sz == |batch| <= RECORD_QSZ
    requires arr[..sz] == batch
    requires forall i :: sz <= i < RECORD_QSZ ==> arr[i] == ZeroRecord
    ensures Packet(sz, arr) == Emit(batch)
  {
    var e := Emit(batch);
    assert forall i :: 0 <= i < RECORD_QSZ ==> arr[i] == e.arr[i] by {
      forall i | 0 <= i < RECORD_QSZ
        ensures arr[i] == e.arr[i]
      {
        if i < sz {
          assert arr[i] == arr[..sz][i];
        }
      }
    }
  }

  /**
   As written the backlog is unbounded: more than RECORD_QSZ records added with
   `queue_add` before a transmit drain (21 with the default `rec_qsz` of 20) are all
   drained, so the loop reaches `arr[20]`, one past the end of the 20-entry packet
   array. The packet sent then claims all of them in `sz` but carries only the first
   20. The queue is a reachable one: it satisfies the abstraction with the added
   records as its log.
   */
  lemma BatchOverflowExample(meta: Metadata, win: Window.WindowState, rec: Record, rs: seq<Record>)
    requires WellFormed(meta) && |rs| > RECORD_QSZ
    ensures var q := RecordQueue.AddAll(RecordQueue.Init(), meta.recQsz, rs);
            var r := Tick(AsWritten, meta.txFreqSec, Timers(0, 0), meta, win, rec, q);
            && RecordQueue.Inv(q, meta.recQsz, rs)
            && RecordQueue.Backlog(q) > RECORD_QSZ
            && r.published.Some? && |r.published.value| == |rs| > RECORD_QSZ
  {
    var q := RecordQueue.AddAll(RecordQueue.Init(), meta.recQsz, rs);
    RecordQueue.InitSatisfiesInv(meta.recQsz);
    RecordQueue.AddAllPreservesInv(RecordQueue.Init(), meta.recQsz, [], rs);
    assert [] + rs == rs;
    assert RecordQueue.Backlog(q) == |rs|;
    TickPublishesBacklog(meta.txFreqSec, Timers(0, 0), meta, win, rec, q);
  }

  /**
   The packet sent for that overflowing batch claims every drained record in `sz` but
   carries only the first 20: what arrives is not the batch.
   */
  lemma OverflowPacketLosesRecords(meta: Metadata, win: Window.WindowState, rec: Record, rs: seq<Record>)
    requires WellFormed(meta) && |rs| > RECORD_QSZ
    ensures var q := RecordQueue.AddAll(RecordQueue.Init(), meta.recQsz, rs);
            var r := Tick(AsWritten, meta.txFreqSec, Timers(0, 0), meta, win, rec, q);
            && r.published.Some?
            && Emit(r.published.value).sz == |rs|
            && Received(Emit(r.published.value)) == r.published.value[..RECORD_QSZ] != r.published.value
  {
    BatchOverflowExample(meta, win, rec, rs);
    var q := RecordQueue.AddAll(RecordQueue.Init(), meta.recQsz, rs);
    EmitRoundTrip(Tick(AsWritten, meta.txFreqSec, Timers(0, 0), meta, win, rec, q).published.value);
  }

  /**
   With the corrected drain, a firing tick publishes exactly the surviving records
   in the order they were added, and never more than the packet holds.
   */
  lemma TickCorrectedBatchFits(now: int, t: Timers, meta: Metadata, win: Window.WindowState,
                               rec: Record, q: RecordQueue.Queue, log: seq<Record>)
    requires meta.windowSz > 0 && RecordQueue.Inv(q, meta.recQsz, log)
    ensures var r := Tick(SkipOverwritten, now, t, meta, win, rec, q);
            && RecordQueue.Inv(r.queue, meta.recQsz, log)
            && (r.published.Some? ==> |r.published.value| <= RECORD_QSZ)
            && (r.published.Some? ==>
                  r.published.value == log[if RecordQueue.Backlog(q) > meta.recQsz
                                           then q.wCnt - meta.recQsz else q.rCnt..])
  {
    RecordQueue.DrainSkippingYieldsSurvivors(q, meta.recQsz, log);
  }

  /** Under either drain policy a tick keeps the queue abstraction and the log. */
  lemma TickKeepsInv(policy: DrainPolicy, now: int, t: Timers, meta: Metadata, win: Window.WindowState,
                     rec: Record, q: RecordQueue.Queue, log: seq<Record>)
    requires meta.windowSz > 0 && RecordQueue.Inv(q, meta.recQsz, log)
    ensures RecordQueue.Inv(Tick(policy, now, t, meta, win, rec, q).queue, meta.recQsz, log)
  {
    match policy
    case AsWritten => RecordQueue.DrainPreservesInv(q, meta.recQsz, log);
    case SkipOverwritten => RecordQueue.DrainSkippingYieldsSurvivors(q, meta.recQsz, log);
  }

  /** Two unread records when the transmit period elapses: one batch of exactly those two. */
  lemma TwoRecordScenario(meta: Metadata, win: Window.WindowState, rec: Record, a: Record, b: Record)
    requires WellFormed(meta) && meta.recQsz >= 2
    ensures var q := RecordQueue.Add(RecordQueue.Add(RecordQueue.Init(), meta.recQsz, a), meta.recQsz, b);
            var r := Tick(AsWritten, meta.txFreqSec, Timers(0, 0), meta, win, rec, q);
            r.published == Some([a, b]) && RecordQueue.Get(r.queue, meta.recQsz).item == None
  {
    var cap := meta.recQsz;
    RecordQueue.InitSatisfiesInv(cap);
    RecordQueue.AddPreservesInv(RecordQueue.Init(), cap, [], a);
    RecordQueue.AddPreservesInv(RecordQueue.Add(RecordQueue.Init(), cap, a), cap, [a], b);
    var q := RecordQueue.Add(RecordQueue.Add(RecordQueue.Init(), cap, a), cap, b);
    assert [a] + [b] == [a, b];
    RecordQueue.DrainInOrder(q, cap, [a, b]);
  }
}

=== FILE: types.dfy ===
/**
 Shared vocabulary of the mold-counter core: the compiled constants, the persisted
 configuration (METADATA), the telemetry record (RECORD), an Option type, and two
 arithmetic helpers the C code relies on implicitly (array sums and C division).
 */
module Types {

  /** Compiled maxima and defaults. */
  const WINDOW_SZ: nat := 100
  const RECORD_QSZ: nat := 20
  const TX_FREQ_SEC: nat := 60
  const SAVE_FREQ_SEC: nat := 900
  const DEBUG_LOG_LEVEL_DEFAULT: nat := 0
  const DEBUG_LOG_LEVEL_MAX: nat := 3

  /** Values a `uint32_t` can hold. */
  const UINT32_LIMIT: nat := 0x1_0000_0000
  type u32 = x: nat | x < UINT32_LIMIT

  datatype Option<T> = None | Some(value: T)

  /** The persisted configuration; every field is a `uint32_t` in the C struct. */
  datatype Metadata = Metadata(
    windowSz: u32,
    recQsz: u32,
    txFreqSec: u32,
    saveFreqSec: u32,
    dbgLogLevel: u32)

  /** A point-in-time telemetry snapshot: lifetime count, windowed average, last duration. */
  datatype Record = Record(count: nat, sAvg: int, lAvg: int)

  const ZeroRecord: Record := Record(0, 0, 0)

  /** The configuration `platform_init` installs before anything is loaded. */
  function Defaults(): (m: Metadata)
    ensures WellFormed(m)
    ensures m.dbgLogLevel == DEBUG_LOG_LEVEL_DEFAULT
  {
    Metadata(WINDOW_SZ, RECORD_QSZ, TX_FREQ_SEC, SAVE_FREQ_SEC, DEBUG_LOG_LEVEL_DEFAULT)
  }

  /**
   The configuration the window and queue code needs in order to stay inside its
   arrays and never divide by zero. The C code never checks the two size bounds.
   */
  predicate WellFormed(m: Metadata) {
    && 0 < m.windowSz <= WINDOW_SZ
    && 0 < m.recQsz <= RECORD_QSZ
    && m.dbgLogLevel <= DEBUG_LOG_LEVEL_MAX
  }

  /** Sum of a sequence of samples, peeling the last element. */
  function Sum(s: seq<int>): int {
    if |s| == 0 then 0 else Sum(s[..|s| - 1]) + s[|s| - 1]
  }

  lemma {:induction false} SumFront(s: seq<int>)
    requires |s| > 0
    ensures Sum(s) == s[0] + Sum(s[1..])
  {
    if |s| > 1 {
      assert s[..|s| - 1][1..] == s[1..][..|s[1..]| - 1];
      SumFront(s[..|s| - 1]);
    }
  }

  lemma {:induction false} SumUpdate(s: seq<int>, i: nat, v: int)
    requires i < |s|
    ensures Sum(s[i := v]) == Sum(s) - s[i] + v
  {
    var t := s[i := v];
    if i < |s| - 1 {
      assert t[..|t| - 1] == s[..|s| - 1][i := v];
      SumUpdate(s[..|s| - 1], i, v);
    } else {
      assert t[..|t| - 1] == s[..|s| - 1];
    }
  }

  lemma {:induction false} SumZeros(s: seq<int>)
    requires forall i :: 0 <= i < |s| ==> s[i] == 0
    ensures Sum(s) == 0
  {
    if |s| > 0 {
      SumZeros(s[..|s| - 1]);
    }
  }

  /** C's `/` on a signed `time_t` truncates toward zero (Dafny's `/` is Euclidean). */
  function TruncDiv(a: int, b: nat): (q: int)
    requires b > 0
    ensures a >= 0 ==> 0 <= q * b <= a < q * b + b
    ensures a < 0 ==> q * b - b < a <= q * b <= 0
  {
    if a >= 0 then
      DivBounds(a, b);
      a / b
    else
      DivBounds(-a, b);
      NegMul(-a / b, b);
      -((-a) / b)
  }

  lemma DivBounds(a: nat, b: nat)
    requires b > 0
    ensures 0 <= (a / b) * b <= a < (a / b) * b + b
  {
    assert a == (a / b) * b + a % b;
  }

  lemma NegMul(x: int, b: int)
    ensures (-x) * b == -(x * b)
  {
  }
}

=== FILE: window.dfy ===
/**
 The sliding-window accumulator (`window_update` / `get_rec`): a ring of cycle
 durations with a running sum, a write cursor, a lifetime count and the last sample.
 The ring always has the compiled WINDOW_SZ slots; only the first `sz` (the
 configured `window_sz`) take part.
 */
module Window {
  import opened Types
  import Ring

  datatype WindowState = WindowState(buf: seq<int>, sum: int, index: nat, total: nat, last: int)

  /** The geometry `window_update` relies on without checking it. */
  predicate Shaped(w: WindowState, sz: nat) {
    && 0 < sz <= WINDOW_SZ
    && |w.buf| == WINDOW_SZ
    && w.index < sz
  }

  /** The running sum equals the sum of the active slots. */
  ghost predicate SumInv(w: WindowState, sz: nat)
    requires sz <= |w.buf|
  {
    w.sum == Sum(w.buf[..sz])
  }

  /** How far the running sum is from the active slots (0 exactly when SumInv holds). */
  ghost function Drift(w: WindowState, sz: nat): int
    requires sz <= |w.buf|
  {
    w.sum - Sum(w.buf[..sz])
  }

  /** The zeroed state `platform_init` establishes. */
  function Init(): WindowState {
    WindowState(seq(WINDOW_SZ, _ => 0), 0, 0, 0, 0)
  }

  lemma InitSatisfiesSumInv(sz: nat)
    requires 0 < sz <= WINDOW_SZ
    ensures Shaped(Init(), sz) && SumInv(Init(), sz)
  {
    SumZeros(Init().buf[..sz]);
  }

  /** `window_update(value)`: overwrite the slot under the cursor and advance it. */
  function Update(w: WindowState, sz: nat, value: int): (r: WindowState)
    requires Shaped(w, sz)
    ensures Shaped(r, sz)
    ensures r.total == w.total + 1 && r.last == value
    ensures r.index == (w.index + 1) % sz
    ensures r.buf[w.index] == value
    ensures forall i :: 0 <= i < |w.buf| && i != w.index ==> r.buf[i] == w.buf[i]
  {
    WindowState(w.buf[w.index := value], w.sum - w.buf[w.index] + value, (w.index + 1) % sz, w.total + 1, value)
  }

  /**
   An update moves the running sum and the active slots by the same amount, so the
   sum invariant is preserved, and so is any error it already carried.
   */
  lemma UpdateKeepsDrift(w: WindowState, sz: nat, value: int)
    requires Shaped(w, sz)
    ensures Drift(Update(w, sz, value), sz) == Drift(w, sz)
    ensures SumInv(w, sz) ==> SumInv(Update(w, sz, value), sz)
  {
    assert Update(w, sz, value).buf[..sz] == w.buf[..sz][w.index := value];
    SumUpdate(w.buf[..sz], w.index, value);
  }

  /** `get_rec`: the record derived from the window; the average is 0 until the window has filled. */
  function GetRec(w: WindowState, sz: nat): (r: Record)
    requires sz > 0
    ensures r.count == w.total && r.lAvg == w.last
    ensures w.total < sz ==> r.sAvg == 0
    ensures w.total >= sz && w.sum >= 0 ==> 0 <= r.sAvg * sz <= w.sum < r.sAvg * sz + sz
    ensures w.total >= sz && w.sum < 0 ==> r.sAvg * sz - sz < w.sum <= r.sAvg * sz <= 0
  {
    Record(w.total, if w.total >= sz then TruncDiv(w.sum, sz) else 0, w.last)
  }

  /** The window after feeding it the samples `vs`, oldest first. */
  function Feed(w: WindowState, sz: nat, vs: seq<int>): (r: WindowState)
    requires Shaped(w, sz)
    ensures Shaped(r, sz)
    ensures r.total == w.total + |vs|
    decreases |vs|
  {
    if |vs| == 0 then w
    else Update(Feed(w, sz, vs[..|vs| - 1]), sz, vs[|vs| - 1])
  }

  /** The cursor after `n` samples has moved `n` places round the active slots. */
  lemma {:induction false} FeedIndex(w: WindowState, sz: nat, vs: seq<int>)
    requires Shaped(w, sz)
    ensures Feed(w, sz, vs).index == (w.index + |vs|) % sz
    decreases |vs|
  {
    if |vs| == 0 {
      Ring.ModUnique(w.index, 0, w.index, sz);
    } else {
      var n := |vs| - 1;
      FeedIndex(w, sz, vs[..n]);
      Ring.ModStep(w.index + n, sz);
    }
  }

  /** Feeding any samples leaves the drift of the running sum unchanged. */
  lemma {:induction false} FeedKeepsDrift(w: WindowState, sz: nat, vs: seq<int>)
    requires Shaped(w, sz)
    ensures Drift(Feed(w, sz, vs), sz) == Drift(w, sz)
  {
    if |vs| > 0 {
      FeedKeepsDrift(w, sz, vs[..|vs| - 1]);
      UpdateKeepsDrift(Feed(w, sz, vs[..|vs| - 1]), sz, vs[|vs| - 1]);
    }
  }

  /**
   From the zeroed start, the active slots hold the most recent `sz` samples (sample k
   in slot k mod sz) and every slot not yet reached is still zero.
   */
  lemma {:induction false} FeedFromInitContents(sz: nat, vs: seq<int>)
    requires 0 < sz <= WINDOW_SZ
    ensures Ring.Mirrors(Feed(Init(), sz, vs).buf, sz, vs)
    ensures forall i :: |vs| <= i < sz ==> Feed(Init(), sz, vs).buf[i] == 0
  {
    if |vs| > 0 {
      var n := |vs| - 1;
      var prefix, v := vs[..n], vs[n];
      FeedFromInitContents(sz, prefix);
      var prev := Feed(Init(), sz, prefix);
      var cur := Feed(Init(), sz, vs);
      assert cur == Update(prev, sz, v);
      FeedIndex(Init(), sz, prefix);
      assert prev.index == n % sz;
      assert cur.buf == prev.buf[n % sz := v];
      Ring.MirrorsAfterWrite(prev.buf, sz, prefix, v);
      assert prefix + [v] == vs;
      if n < sz {
        Ring.ModUnique(n, 0, n, sz);
        assert prev.index == n;
      }
    } else {
      assert Feed(Init(), sz, vs) == Init();
    }
  }

  /**
   From the zeroed start the running sum is the sum of the last min(N, sz) samples:
   unfilled slots contribute zero during warm-up.
   */
  lemma {:induction false} FeedFromInitSum(sz: nat, vs: seq<int>)
    requires 0 < sz <= WINDOW_SZ
    ensures Feed(Init(), sz, vs).sum == Sum(vs[Ring.Oldest(|vs|, sz)..])
  {
    if |vs| == 0 {
      assert Feed(Init(), sz, vs) == Init();
    } else {
      FeedFromInitSum(sz, vs[..|vs| - 1]);
      if |vs| <= sz {
        FeedSumWarmUpStep(sz, vs);
      } else {
        FeedSumFullStep(sz, vs);
      }
    }
  }

  /** While the window is still filling, the new sample lands on a zero slot. */
  lemma FeedSumWarmUpStep(sz: nat, vs: seq<int>)
    requires 0 < |vs| <= sz <= WINDOW_SZ
    requires Feed(Init(), sz, vs[..|vs| - 1]).sum == Sum(vs[..|vs| - 1][Ring.Oldest(|vs| - 1, sz)..])
    ensures Feed(Init(), sz, vs).sum == Sum(vs[Ring.Oldest(|vs|, sz)..])
  {
    var n := |vs| - 1;
    var prefix, v := vs[..n], vs[n];
    FeedFromInitContents(sz, prefix);
    var prev := Feed(Init(), sz, prefix);
    assert Feed(Init(), sz, vs) == Update(prev, sz, v);
    FeedIndex(Init(), sz, prefix);
    assert prev.index == n % sz;
    SumSlide(vs, 0);
    Ring.ModUnique(n, 0, n, sz);
    assert prev.buf[n % sz] == 0;
  }

  /** Once the window is full, the new sample replaces the oldest one in the window. */
  lemma FeedSumFullStep(sz: nat, vs: seq<int>)
    requires 0 < sz <= WINDOW_SZ && sz < |vs|
    requires Feed(Init(), sz, vs[..|vs| - 1]).sum == Sum(vs[..|vs| - 1][Ring.Oldest(|vs| - 1, sz)..])
    ensures Feed(Init(), sz, vs).sum == Sum(vs[Ring.Oldest(|vs|, sz)..])
  {
    var n := |vs| - 1;
    var lo := n - sz;
    assert Ring.Oldest(n, sz) == lo && Ring.Oldest(|vs|, sz) == lo + 1;
    FullWindowEvictsOldest(sz, vs);
    SumSlide(vs, lo);
  }

  /** With a full window, an update swaps the sample `sz` back for the new one. */
  lemma FullWindowEvictsOldest(sz: nat, vs: seq<int>)
    requires 0 < sz <= WINDOW_SZ && sz < |vs|
    ensures Feed(Init(), sz, vs).sum
            == Feed(Init(), sz, vs[..|vs| - 1]).sum - vs[|vs| - 1 - sz] + vs[|vs| - 1]
  {
    FeedLast(Init(), sz, vs);
    EvictAfterFeed(sz, vs[..|vs| - 1], vs[|vs| - 1]);
  }

  /** Feeding a non-empty run is feeding all but its last sample, then one update. */
  lemma FeedLast(w: WindowState, sz: nat, vs: seq<int>)
    requires Shaped(w, sz) && |vs| > 0
    ensures Feed(w, sz, vs) == Update(Feed(w, sz, vs[..|vs| - 1]), sz, vs[|vs| - 1])
  {
  }

  /** After at least `sz` samples from the zeroed start, the next update evicts sample `sz` back. */
  lemma EvictAfterFeed(sz: nat, prefix: seq<int>, value: int)
    requires 0 < sz <= WINDOW_SZ && sz <= |prefix|
    ensures Update(Feed(Init(), sz, prefix), sz, value).sum
            == Feed(Init(), sz, prefix).sum - prefix[|prefix| - sz] + value
  {
    var prev := Feed(Init(), sz, prefix);
    FeedIndex(Init(), sz, prefix);
    assert Init().index == 0;
    assert prev.index == |prefix| % sz;
    CursorOnOldest(sz, prefix);
    UpdateReplaces(prev, sz, value);
  }

  /** One update trades the sample under the cursor for the new one in the running sum. */
  lemma UpdateReplaces(w: WindowState, sz: nat, value: int)
    requires Shaped(w, sz)
    ensures Update(w, sz, value).sum == w.sum - w.buf[w.index] + value
  {
  }

  /** With a full window, the cursor points at the oldest sample still in it. */
  lemma CursorOnOldest(sz: nat, vs: seq<int>)
    requires 0 < sz <= WINDOW_SZ && sz <= |vs|
    ensures Feed(Init(), sz, vs).buf[|vs| % sz] == vs[|vs| - sz]
  {
    FeedFromInitContents(sz, vs);
    Ring.NextSlotHoldsOldest(Feed(Init(), sz, vs).buf, sz, vs);
  }

  /** Appending a sample to a suffix, and dropping the suffix's first sample. */
  lemma SumSlide(vs: seq<int>, lo: nat)
    requires lo < |vs|
    ensures Sum(vs[lo..]) == Sum(vs[..|vs| - 1][lo..]) + vs[|vs| - 1]
    ensures Sum(vs[lo + 1..]) == Sum(vs[lo..]) - vs[lo]
  {
    assert vs[lo..][..|vs[lo..]| - 1] == vs[..|vs| - 1][lo..];
    SumFront(vs[lo..]);
    assert vs[lo..][1..] == vs[lo + 1..];
  }

  /** From the zeroed start the sum invariant holds after any samples. */
  lemma FeedFromInitSumInv(sz: nat, vs: seq<int>)
    requires 0 < sz <= WINDOW_SZ
    ensures SumInv(Feed(Init(), sz, vs), sz)
  {
    InitSatisfiesSumInv(sz);
    FeedKeepsDrift(Init(), sz, vs);
  }

  /**
   What `get_rec` reports after the samples `vs` from the zeroed start: the lifetime
   count, the last sample, and the truncated mean of the last `sz` samples once at
   least `sz` have been seen (0 before that).
   */
  lemma FeedFromInitRecord(sz: nat, vs: seq<int>)
    requires 0 < sz <= WINDOW_SZ
    ensures GetRec(Feed(Init(), sz, vs), sz).count == |vs|
    ensures GetRec(Feed(Init(), sz, vs), sz).lAvg == (if |vs| == 0 then 0 else vs[|vs| - 1])
    ensures GetRec(Feed(Init(), sz, vs), sz).sAvg
            == (if |vs| < sz then 0 else TruncDiv(Sum(vs[|vs| - sz..]), sz))
  {
    FeedFromInitSum(sz, vs);
  }

  /** Window 3, durations 5, 7, 9: count 3, average 7, last 9. */
  lemma ExampleThreeSamples()
    ensures GetRec(Feed(Init(), 3, [5, 7, 9]), 3) == Record(3, 7, 9)
  {
    FeedFromInitRecord(3, [5, 7, 9]);
    assert [5, 7, 9][0..] == [5, 7, 9];
    assert [5, 7, 9][..2] == [5, 7];
    assert [5, 7][..1] == [5];
    assert Sum([5]) == 5 by { assert [5][..0] == []; }
    assert Sum([5, 7, 9]) == 21;
  }

  /**
   `file_read(TYPE_WIN)` as written: the ring is replaced by the persisted image while
   the running sum, cursor and count keep their zeroed start-up values.
   */
  function Restore(w: WindowState, image: seq<int>): (r: WindowState)
    requires |image| == WINDOW_SZ
    ensures r.buf == image
    ensures r.sum == w.sum && r.index == w.index && r.total == w.total && r.last == w.last
  {
    w.(buf := image)
  }

  /**
   After restoring a persisted ring into the zeroed state, the running sum stays short
   by the restored active sum through every later update: the sum invariant is broken
   whenever that sum is non-zero.
   */
  lemma RestoredSumStaysWrong(sz: nat, image: seq<int>, vs: seq<int>)
    requires 0 < sz <= WINDOW_SZ && |image| == WINDOW_SZ
    ensures Drift(Feed(Restore(Init(), image), sz, vs), sz) == -Sum(image[..sz])
    ensures Sum(image[..sz]) != 0 ==> !SumInv(Feed(Restore(Init(), image), sz, vs), sz)
  {
    FeedKeepsDrift(Restore(Init(), image), sz, vs);
  }

  /** A persisted window of three 10s followed by three more 10s reports an average of 0. */
  lemma RestoredAverageExample()
    ensures var w := Feed(Restore(Init(), [10, 10, 10] + seq(WINDOW_SZ - 3, _ => 0)), 3, [10, 10, 10]);
            GetRec(w, 3).sAvg == 0 && Sum(w.buf[..3]) == 30
  {
    var image := [10, 10, 10] + seq(WINDOW_SZ - 3, _ => 0);
    var w := Feed(Restore(Init(), image), 3, [10, 10, 10]);
    RestoredSumStaysWrong(3, image, [10, 10, 10]);
    assert image[..3] == [10, 10, 10];
    ThirtySum();
    FeedNoneUpdated(Restore(Init(), image), 3, [10, 10, 10]);
    assert w.buf[..3] == [10, 10, 10];
  }

  lemma ThirtySum()
    ensures Sum([10, 10, 10]) == 30
  {
    assert [10, 10, 10][..2] == [10, 10];
    assert [10, 10][..1] == [10];
    assert [10][..0] == [];
  }

  /** Feeding from the cursor onward only rewrites the slots the cursor passes. */
  lemma {:induction false} FeedNoneUpdated(w: WindowState, sz: nat, vs: seq<int>)
    requires Shaped(w, sz) && w.index == 0 && |vs| <= sz
    ensures forall i :: 0 <= i < |vs| ==> Feed(w, sz, vs).buf[i] == vs[i]
    ensures forall i :: |vs| <= i < |w.buf| ==> Feed(w, sz, vs).buf[i] == w.buf[i]
  {
    if |vs| > 0 {
      FeedNoneUpdated(w, sz, vs[..|vs| - 1]);
      var prev := Feed(w, sz, vs[..|vs| - 1]);
      FeedIndex(w, sz, vs[..|vs| - 1]);
      Ring.ModUnique(|vs| - 1, 0, |vs| - 1, sz);
      assert prev.index == |vs| - 1;
    }
  }

  /**
   The evident intent of restoring the window: recompute the running sum from the
   restored ring once the window size is final, which re-establishes the invariant.
   */
  function Resync(w: WindowState, sz: nat): (r: WindowState)
    requires Shaped(w, sz)
    ensures Shaped(r, sz) && SumInv(r, sz)
    ensures r.buf == w.buf && r.index == w.index && r.total == w.total && r.last == w.last
  {
    w.(sum := Sum(w.buf[..sz]))
  }

  /** With the sum recomputed, the restored window of three 10s reports an average of 10. */
  lemma ResyncedAverageExample()
    ensures var w := Feed(Resync(Restore(Init(), [10, 10, 10] + seq(WINDOW_SZ - 3, _ => 0)), 3), 3, [10, 10, 10]);
            GetRec(w, 3).sAvg == 10
  {
    var image := [10, 10, 10] + seq(WINDOW_SZ - 3, _ => 0);
    var start := Resync(Restore(Init(), image), 3);
    var w := Feed(start, 3, [10, 10, 10]);
    FeedKeepsDrift(start, 3, [10, 10, 10]);
    FeedNoneUpdated(start, 3, [10, 10, 10]);
    assert w.buf[..3] == [10, 10, 10];
    ThirtySum();
    assert w.sum == 30;
  }
}
